=== FILE: README.md ===
# shadowpass in Dafny

A model of the core of shadowpass, a password manager with a zero-knowledge design. The browser
client derives a *vault key* from the username and master password with PBKDF2. From the vault key
it derives a *master token*, and only `{username, masterToken}` is ever sent. The Express/Postgres
server keeps one account per username (a master token and an opaque vault value) and one settings
row per account. It issues a session cookie (a JWT) at registration and login. The `checkAuth` gate
binds the cookie's username as the request's principal for the vault and settings routes.

The model is functional:

- The database is an immutable `Store.State`:
  - accounts keyed by username;
  - settings rows keyed by account id;
  - the next id to hand out.
- Every handler is a pure function from a state to a `Postgres.TxResult` that holds:
  - the response sent;
  - the error thrown;
  - the state afterwards;
  - the client calls made.
- `Postgres.Transaction` is the all-or-nothing combinator that every handler runs inside. An `Io`
  parameter chooses which step fails: connect, BEGIN, the k-th query, COMMIT or ROLLBACK.
- Handlers send their response inside the transaction, before COMMIT, as the source does. A COMMIT
  failure therefore leaves the client holding a success while the store is rolled back. The model
  states this as-is (`AuthController.RegisterReplyPrecedesCommit`, `AuthGate.AdmitPrecedesCommit`).
- JSON request bodies are `Values.Json`. express-validator reads every rule through its string
  coercion, and the model spells that coercion out (`Values.ToText`).
- The username travels as the JSON value the body gave. The queries see its text (`Values.ParamText`), while the session claims the value itself. A boolean or numeric username therefore registers but its session is never admitted (`Routers.NonStringUsernameSessionDead`).
- JWTs are symbolic: a claims record and a MAC tag. PBKDF2 is a function-valued parameter.
- The clock (`now`) is a parameter.

Modules follow the source layout:

| module | source |
|---|---|
| `Values` | JSON values and the JavaScript number↔text conversions |
| `Jwt` | symbolic jsonwebtoken sign/verify |
| `ResponseTemplates` | server/src/utils/responseTemplates.ts |
| `Postgres` | server/src/db/postgres.ts |
| `Store` | the Vaults and Settings tables |
| `Validators` | server/src/validators/auth.ts, settings.ts, vaults.ts, validation.ts |
| `Authorization` | server/src/utils/authorization.ts |
| `AuthController`, `VaultsController`, `SettingsController` | server/src/controllers/*.ts |
| `AuthGate` | server/src/middlewares/auth.ts |
| `Routers` | server/src/routers/*.ts |
| `Crypto` | web/src/utils/crypto.ts |
| `ClientHooks` | web/src/hooks/useSignupPage.tsx, useLoginPage.tsx |
| `EndToEnd` | the client's requests fed to the server's routes |

## Model

| member | source | states |
|---|---|---|
| `Jwt.Sign` | server/src/controllers/auth.ts:67-73 | The session claims the username value exactly as given (a JSON string, boolean or number) and lives exactly `expiresIn` seconds. |
| `Jwt.Verify` | server/src/middlewares/auth.ts:40-51 | A cookie is accepted only if it carries a tag made with this secret over its own claims and it has not expired; the result is the claimed username value. |
| `Jwt.SignThenVerify` | server/src/middlewares/auth.ts:40-53 | A session the server signed verifies to its username exactly while `now` is before issue time plus lifetime, and not at all afterwards. |
| `Jwt.ExpiryIsFinal` | server/src/middlewares/auth.ts:40-51 | Once a token has expired it never verifies again. |
| `Jwt.ForeignKeyRejected` | server/src/middlewares/auth.ts:42 | A token signed under another secret never verifies. |
| `ResponseTemplates.SendClientSideError` | server/src/utils/responseTemplates.ts:12-19 | The body is exactly `{error: errMsg}`, the status is the given one, defaulting to 400 "Invalid Request". |
| `ResponseTemplates.SendServerSideError` | server/src/utils/responseTemplates.ts:30-37 | The body is always `{error: "Server Side Error"}`, whatever the error; the status defaults to 500. |
| `ResponseTemplates.SendSuccessResponse` | server/src/utils/responseTemplates.ts:49-57 | The body's keys are `message` plus every additional key; additional values are kept, so an additional `message` overrides; status defaults to 200. |
| `ResponseTemplates.ServerErrorHidesCause` | server/src/utils/responseTemplates.ts:36 | Two different errors produce identical server-side responses. |
| `ResponseTemplates.ErrorBodiesHaveNoMessage` | server/src/utils/responseTemplates.ts:12-37 | Neither error template has a `message` key, and the server-side `error` text is truthy. |
| `Postgres.QueryClient` | server/src/db/postgres.ts:72-82 | Parameters are passed exactly when they are given, unchanged, with the query text. |
| `Postgres.Transaction` | server/src/db/postgres.ts:92-113 | All-or-nothing: completed operations commit their writes, a throw restores the old state and rethrows; COMMIT and release conditions as listed below the table. |
| `Postgres.ReliableTransaction` | server/src/db/postgres.ts:95-107 | Without I/O faults, returning operations give BEGIN, COMMIT, release and their writes; throwing operations give BEGIN, ROLLBACK, release, the same error and the old state. |
| `Authorization.Split` | server/src/utils/authorization.ts:29 | `split(" ")` yields at least one part, no part contains the separator, and joining the parts with it gives the input back. |
| `Authorization.SplitUnique` | server/src/utils/authorization.ts:29 | Any separator-free parts that join to the text are exactly the split, so `Split` is the only such decomposition. |
| `Authorization.CheckAndGetJwtToken` | server/src/utils/authorization.ts:13-44 | No header gives 401 "Missing Authorization Header"; a returned token means the header was exactly `"Bearer " + token` with a space-free token; every other header gives 401 "Invalid Authorization Header". |
| `Authorization.BearerRoundTrip` | server/src/utils/authorization.ts:29-40 | For a token without spaces, parsing `"Bearer " + token` returns that token. |
| `Authorization.AcceptedIff` | server/src/utils/authorization.ts:29-40 | A header is accepted iff it is `"Bearer "` followed by a space-free token. |
| `Authorization.SchemeIsCaseSensitive` | server/src/utils/authorization.ts:30 | `"bearer "` and a double space are rejected. |
| `Validators.PatternIsUsernameRule` | server/src/validators/auth.ts:8 | The matcher for `^[a-zA-Z0-9_]{4,32}$` accepts exactly the texts of 4 to 32 characters drawn from letters, digits and underscore. |
| `Validators.UsernameChain` | server/src/validators/auth.ts:5-11 | No errors iff the username is present and its text satisfies the rule; a missing username gives "Username is required" then the format message; a passing username is a boolean, number or string, since the text of `null` and of an object never matches. |
| `Validators.MasterTokenChain` | server/src/validators/auth.ts:12-16 | No errors iff the master token is present and a JSON string; there is no length or format constraint. |
| `Validators.RegisterValidation` | server/src/validators/auth.ts:4-18 | A body passes iff it has a well-formed username and a string master token; a username error is reported before any master-token error; a passing username need not be a string: `true` or `12345` pass as their text. |
| `Validators.LoginValidation` | server/src/validators/auth.ts:20-34 | Login validation yields the same errors as registration validation on every body. |
| `Validators.CreateNewVaultValidation` | server/src/validators/vaults.ts:4-13 | The same username rule: a body passes iff it has a well-formed username, and a missing one is reported as "Username is required". |
| `Validators.UpdateSettingsValidation` | server/src/validators/settings.ts:4-17 | A body passes iff the interval's text is a non-negative integer and the flag's text is a boolean; a numeric interval passes iff `0 <= n < 10^21`; a missing `settings` is reported first; a bad interval is reported before a bad flag. |
| `Validators.NumericIntervalRule` | server/src/validators/settings.ts:9 | A JSON number passes the interval rule exactly when `0 <= n < 10^21`: from 10^21 on, its text is in exponent form ("1e+21"), which `isInt` rejects. |
| `Values.IntTextRoundTrip` | server/src/validators/settings.ts:9 | `String(n)` reads back as `n` when `|n| < 10^21`, and for larger integers it is exponent text that does not read as an integer at all. |
| `Validators.ValidateErrors` | server/src/validators/validation.ts:13-25 | Exactly one of "respond" and "continue": continue iff there are no errors, otherwise 400 with body `{error: <first message>}`. |
| `Validators.FirstErrorWins` | server/src/validators/validation.ts:21 | Messages after the first never change the response. |
| `AuthController.Register` | server/src/controllers/auth.ts:24-93 | Existing username: 401 and no change; fresh username: exactly one account keyed by the username's parameter text holding the default vault, and one settings row, 201 with the session signed with the server's secret at the current time, claiming the body's username value for the default interval; details below the table. |
| `AuthController.RegisterKeepsValid` | server/src/controllers/auth.ts:34-62 | Registration preserves the store invariant: ids below the next id, distinct, each with a settings row. |
| `AuthController.Login` | server/src/controllers/auth.ts:109-173 | Succeeds only when the username's parameter text and the token match an account exactly, with the session signed with the server's secret at the current time, for the stored interval and claiming the body's username value; one uniform 401 otherwise; never changes the store; details below the table. |
| `AuthController.LoginFailureIsUniform` | server/src/controllers/auth.ts:119-131 | An unknown username and a wrong token receive identical results. |
| `AuthController.RegisterThenLogin` | server/src/controllers/auth.ts:50-168 | Registering `(u, t)` and then logging in with `(u, t)` succeeds with the session signed at login time for the default lifetime. |
| `AuthController.RegisterReplyPrecedesCommit` | server/src/controllers/auth.ts:76-89 | When COMMIT fails, the client has already received 201 and a session, yet no account was stored. |
| `AuthController.RegisterIsAtomic` | server/src/controllers/auth.ts:50-62 | If the settings insert throws after the account insert, neither persists, the error is rethrown and the client is released. |
| `VaultsController.GetVault` | server/src/controllers/vaults.ts:14-55 | The store never changes; an absent account gives 401 "Vault not found for username: u!"; otherwise 200 with the stored vault value unmodified. |
| `VaultsController.UpdateVault` | server/src/controllers/vaults.ts:63-109 | An absent account gives 400 and no change; otherwise only the principal's vault value changes (its id, token, other accounts and settings are kept). |
| `VaultsController.DeleteVault` | server/src/controllers/vaults.ts:117-161 | An absent account gives 401 and no change; otherwise exactly that account is removed and settings are untouched. |
| `VaultsController.UpdateThenGet` | server/src/controllers/vaults.ts:91-95 | Writing a vault and reading it back gives the written value. |
| `VaultsController.VaultIsolation` | server/src/controllers/vaults.ts:91-95 | A write to one account's vault does not change what another account reads. |
| `VaultsController.DeleteThenGet` | server/src/controllers/vaults.ts:144-148 | After a delete, reading the vault reports it as not found. |
| `VaultsController.VaultWritesKeepValid` | server/src/controllers/vaults.ts:91-148 | Updating and deleting vaults preserve the store invariant. |
| `SettingsController.GetSettings` | server/src/controllers/settings.ts:14-78 | The store never changes; no account gives 404 "Vault not found for username:u"; no row gives 404 "Settings not found for username:u"; otherwise 200 with exactly the two fields of the row keyed by this account's id. |
| `SettingsController.UpdateSettings` | server/src/controllers/settings.ts:86-149 | No account gives 404 and no change; an interval the column cannot hold makes the UPDATE throw, so nothing is sent and nothing changes (without faults, exactly then); otherwise both fields of only this account's row are overwritten, accounts are unchanged, and the answer is 200. |
| `SettingsController.ValidIdsAreTruthy` | server/src/controllers/settings.ts:33 | In a valid store the guard `!rows[0].id` only fires for an absent account. |
| `SettingsController.UpdateThenGetSettings` | server/src/controllers/settings.ts:127-135 | After an update with an interval the column holds, reading the settings gives the new values. |
| `SettingsController.UpdateWithoutRowSucceeds` | server/src/controllers/settings.ts:127-143 | With an account but no settings row, an update with an interval the column holds still answers 200 and changes nothing, since the row count is never checked. |
| `SettingsController.UpdateSettingsKeepsValid` | server/src/controllers/settings.ts:127-135 | Settings updates preserve the store invariant. |
| `SettingsController.SettingsFromBody` | server/src/controllers/settings.ts:127-135 | A body yields the settings row the UPDATE is asked to store exactly when it passes `updateSettingsValidation`; whether the column holds it is `SettingsController.UpdateSettings`'s concern. |
| `SettingsController.TypedSettingsBody` | server/src/controllers/settings.ts:130-134 | A JSON number `0 <= n < 10^21` and a JSON boolean `b` yield exactly the row `(n, b)` for the UPDATE; a number from 10^21 on yields none. |
| `AuthGate.CheckAuth` | server/src/middlewares/auth.ts:21-82 | Binds a principal only for a verified token whose claim is the string username of an existing account, so the `!==` test refuses a boolean or numeric claim even when its text names an account; every refusal is 401; the store never changes; details below the table. |
| `AuthGate.AdmitPrecedesCommit` | server/src/middlewares/auth.ts:74-80 | `next()` runs before COMMIT, so a COMMIT failure calls `next` a second time, with the error. |
| `AuthGate.DeletedAccountSessionRefused` | server/src/middlewares/auth.ts:53-72 | A session for a deleted account is refused with 401, even before it expires. |
| `AuthGate.NonStringClaimRefused` | server/src/middlewares/auth.ts:53-72 | A session whose username claim is a boolean or number is never admitted, and without I/O faults it gets 401 "Invalid or expired jwt token". |
| `Routers.PostRegister` | server/src/routers/auth.ts:12 | No auth gate; invalid input gets the first validation message with 400 and no store change; valid input reaches `registerHandler` with the body's username value unconverted (a boolean, number or string) and its token. |
| `Routers.PostLogin` | server/src/routers/auth.ts:14 | No auth gate, the store never changes; invalid input stops at validation; valid input reaches `loginHandler` with the body's username value unconverted and its token. |
| `Routers.GetAuth` | server/src/routers/auth.ts:16 | `authHandler` runs only when `checkAuth` admits, and only on the gate's principal. |
| `Routers.GetVaultRoute` | server/src/routers/vaults.ts:16 | `getVaultHandler` runs only when `checkAuth` admits, on the gate's principal; the store never changes. |
| `Routers.PutVaultRoute` | server/src/routers/vaults.ts:18 | An auth failure wins over a validation failure; the update runs only when both pass, on the gate's principal with `body.vault`. |
| `Routers.DeleteVaultRoute` | server/src/routers/vaults.ts:20 | `deleteVaultHandler` runs only when `checkAuth` admits, on the gate's principal. |
| `Routers.ChangeMasterPasswordRoute` | server/src/routers/vaults.ts:22-28 | `/changeMasterPassword` is gated by `checkAuth` before its validation and handler. |
| `Routers.GetSettingsRoute` | server/src/routers/settings.ts:11 | `getSettingsHandler` runs only when `checkAuth` admits, on the gate's principal; the store never changes. |
| `Routers.PutSettingsRoute` | server/src/routers/settings.ts:13-15 | The order is `checkAuth`, then validation, then the handler; invalid settings never reach the update; valid ones are stored as the parsed row. |
| `Routers.RefusedRequestsChangeNothing` | server/src/middlewares/auth.ts:28-72 | A request the gate refuses leaves the store unchanged and gets 401 or a server-side error. |
| `Routers.AuthBeforeSettingsValidation` | server/src/routers/settings.ts:13-15 | A settings update without a cookie gets the gate's 401, not the validator's 400. |
| `Routers.VaultRoutesIgnoreBodyUsername` | server/src/controllers/vaults.ts:20 | A `username` in the body never changes what the vault GET, vault DELETE or settings GET routes do. |
| `Routers.InvalidCredentialsStopAtValidation` | server/src/routers/auth.ts:12-14 | A body without a username gets 400 "Username is required" from both routes and the store is untouched. |
| `Routers.SessionDiesWithAccount` | server/src/middlewares/auth.ts:53-72 | After the vault DELETE, a session issued for that account gets 401 "Invalid or expired jwt token" on the vault GET. |
| `Routers.RegisteredSessionOpensVault` | server/src/controllers/auth.ts:67-73 | After a fresh well-formed string username registers, its session cookie opens the vault route with 200 and the default vault at any time before the default interval elapses. |
| `Routers.LoggedInSessionOpensVault` | server/src/controllers/auth.ts:147-153 | After a login with matching credentials, its session cookie opens the vault route with 200 and the stored vault at any time before the stored interval elapses. |
| `Routers.TypedSettingsUpdate` | server/src/controllers/settings.ts:127-135 | An admitted update with a JSON number `n >= 0` and a JSON boolean `b` stores exactly `(n, b)` with 200 when `n < 10^21` and the column holds it, gets the server-side 500 with no change when the column does not, and validation's 400 from 10^21 on. |
| `Routers.NonStringUsernameSessionDead` | server/src/middlewares/auth.ts:53-72 | Registering with a boolean or numeric username whose text matches the pattern gives 201, stores the account and issues a session, yet that session is never admitted by the gate. |
| `Crypto.ToBase16` | web/src/utils/crypto.ts:9 | `toString(16)` gives at least one character, all from `0-9a-f`. |
| `Crypto.PadStart` | web/src/utils/crypto.ts:9 | `padStart` keeps the text as a suffix, pads to the width with the fill, and never shortens. |
| `Crypto.ByteToHex` | web/src/utils/crypto.ts:9 | Every byte becomes exactly two characters: the high nibble's digit, then the low nibble's. |
| `Crypto.BufferToHex` | web/src/utils/crypto.ts:7-11 | The output is exactly twice as long as the buffer. |
| `Crypto.HexLayout` | web/src/utils/crypto.ts:8-10 | Byte `i` becomes characters `2i` and `2i+1`, in order. |
| `Crypto.HexRoundTrip` | web/src/utils/crypto.ts:7-11 | Decoding the hex text gives the bytes back. |
| `Crypto.DecodeThenEncode` | web/src/utils/crypto.ts:7-11 | Every text the lowercase decoder accepts is exactly the encoding of what it decodes to. |
| `Crypto.HexInjective` | web/src/utils/crypto.ts:8-10 | Different buffers have different hex texts. |
| `Crypto.HexOfConcat` | web/src/utils/crypto.ts:8-10 | `hex(a + b) == hex(a) + hex(b)`. |
| `Crypto.HexAlphabetOnly` | web/src/utils/crypto.ts:9 | Every output character is in `0-9a-f`, and bytes below 16 start with `'0'`. |
| `Crypto.DeriveKey` | web/src/utils/crypto.ts:23-54 | Derivation fails exactly when PBKDF2 throws; otherwise the text decodes back to PBKDF2's output for `keyLength * 8` bits, with defaults of 100000 iterations, SHA-256 and 32 bytes. |
| `Crypto.DefaultKeyIs64Hex` | web/src/utils/crypto.ts:28-53 | With the default 32-byte length, the key is 64 lowercase hex characters. |
| `Crypto.GenerateVaultKey` | web/src/utils/crypto.ts:63-70 | The vault key is the PBKDF2 output for the master password, salted with the username, at 1000000 SHA-256 iterations and 256 bits. |
| `Crypto.GenerateMasterToken` | web/src/utils/crypto.ts:79-85 | The master token is the PBKDF2 output for the master password, salted with the vault key's hex text, at 100000 iterations and 256 bits. |
| `Crypto.DeriveMasterToken` | web/src/hooks/useSignupPage.tsx:80-87 | The two-stage chain fails exactly when one of its PBKDF2 stages fails; otherwise the token is PBKDF2 (100000 iterations) salted with the hex text of PBKDF2 (1000000 iterations) salted with the username. |
| `ClientHooks.HandleSignup` | web/src/hooks/useSignupPage.tsx:57-98 | Mismatch checked before length; only then derivation, and a request `{username, masterToken}` iff it succeeds; loading off on exit; details below the table. |
| `ClientHooks.HandleLogin` | web/src/hooks/useLoginPage.tsx:58-82 | No length or match check: a request `{username, masterToken}` is sent iff derivation succeeds; otherwise "An error occurred during login". Loading is off on exit. |
| `ClientHooks.SignupAndLoginAgree` | web/src/hooks/useLoginPage.tsx:64-76 | The same `(username, password)` gives the same request from signup and from login. |
| `ClientHooks.PasswordOnlyThroughPbkdf2` | web/src/hooks/useLoginPage.tsx:64-76 | Two passwords whose PBKDF2 outputs agree give the same request: the password is never sent itself. |
| `ClientHooks.LoginSuccessNavigates` | web/src/hooks/useLoginPage.tsx:44-48 | The server's login success body always leads to the dashboard. |
| `ClientHooks.SignupStoresNoToken` | web/src/hooks/useSignupPage.tsx:43-48 | The server's registration body has no `jwtToken` (the session travels as a cookie), so signup never stores a token. |
| `EndToEnd.PostedCredentialsValidate` | server/src/validators/auth.ts:4-18 | Credentials posted as JSON strings pass register/login validation exactly when the username is well formed. |
| `EndToEnd.LoginNavigatesExactlyOnSuccess` | web/src/hooks/useLoginPage.tsx:44-48 | On every reply of the login route, the login page navigates to the dashboard exactly when the reply is the 200 success. |
| `EndToEnd.SignupNeverStoresToken` | web/src/hooks/useSignupPage.tsx:43-48 | No reply of the register route makes the signup page store a token. |
| `EndToEnd.SignupThenLogin` | web/src/hooks/useLoginPage.tsx:64-76 | Signup through the register route followed by login with the same password gives 201, then a session with the default lifetime and navigation to the dashboard (the login request taken as a POST to the login route, see below). |

`Postgres.Transaction` states:

- if the operations complete and COMMIT succeeds, their writes are the new state;
- if anything throws, the state is the old one;
- the operations' error is rethrown unchanged unless ROLLBACK itself fails;
- COMMIT is sent iff the operations returned, including early returns;
- the client is released iff it was acquired and ROLLBACK did not throw.

`AuthController.Register` states:

- an existing username gives 401 "User already exists!" and no change;
- a fresh one adds exactly one account `(username, masterToken)` with the next id, and one settings row with that id holding the defaults;
- the account is keyed by the username's parameter text, the `String` form node-postgres sends;
- the new account holds the default vault;
- success is 201 "Registration successful!" with the session signed with the server's secret at the current time, whose lifetime is the new row's interval and whose claim is the body's username value, unconverted;
- nothing persists when something throws.

`AuthController.Login` states:

- the store never changes;
- the response is a success only if an account has exactly that username and token; every other attempt gets the one 401 "Invalid username or master token!";
- the session is signed with the server's secret at the current time, and its lifetime is the account's stored interval;
- without I/O faults, a response is sent unless the settings row is missing.

`AuthGate.CheckAuth` states:

- the store never changes;
- a missing or empty cookie gives 401 "Authorization cookies do not exist" with no database access;
- a token that fails verification gives 401 "Invalid or expired jwt token" with no database access;
- a principal is bound only for a verified token whose claim is a string naming an existing account, and then it is that string;
- a boolean or numeric claim finds the account by its text, but the `!==` test refuses it with the same 401;
- a verified string claim for a missing account gets the same 401;
- without I/O faults, the principal is bound once, with nothing forwarded.

`ClientHooks.HandleSignup` states:

- a mismatch gives "Passwords do not match" before the length check;
- a password shorter than 8 gives "Master password must be at least 8 characters long";
- a request is sent iff no error is set, and then it is exactly `{username, masterToken}` with the two-stage token;
- a derivation failure gives "An error occurred during signup";
- loading is off on every exit.

## Left out

- HTTP, cookies and Express plumbing are left out: server/src/app.ts, server/src/index.ts, server/src/config.ts and server/src/middlewares/handlers.ts. The one piece kept is that an error passed to `next(err)` ends in `sendServerSideError`, and is lost if a response was already sent (`Routers.Finish`). app.ts never mounts these routers, so the routers are taken as the entry points.
- The routers import four stages that the files they import from do not export:
  - `authHandler`: server/src/controllers/auth.ts exports only `registerHandler` and `loginHandler`;
  - `changeMasterPasswordHandler`: server/src/controllers/vaults.ts exports only the get, update and delete vault handlers;
  - `changeMasterPasswordValidation` and `updateVaultValidation`: server/src/validators/vaults.ts exports only `createNewVaultValidation`.

  So server/src/routers/auth.ts:3,16 and server/src/routers/vaults.ts:2-9,18,22-28 do not type-check as written. Compiled without type checking, the imports are `undefined`, and Express's `route.get`/`route.put` throw at module load on an undefined callback, so neither router would load. The model takes the evidently intended stages as parameters of `Routers.GetAuth`, `Routers.PutVaultRoute` and `Routers.ChangeMasterPasswordRoute`, which state only the gating and the order around them.
- The SQL text, the pg pool, connection retry and database concurrency are left out. The model is sequential, and each handler's transaction runs alone.
- An `id` sequence that is not rolled back is left out. In Postgres a rolled-back insert still consumes the sequence value. The model's `nextId` is rolled back with the rest of the state. Ids stay unique either way.
- The schema is not visible, so the default vault value, the default settings row and the largest value the `autoLockTimeInterval` column holds are parameters (`Store.Schema`, `Store.FitsInterval`). Deleting a vault is not modelled as cascading to its settings row, because no cascade appears in the code.
- The interval column is taken to be a signed integer column whose values node-postgres returns as numbers, as it does for `integer`. A `bigint` or `numeric` column comes back as text, and `jwt.sign` would then read the text lifetime in milliseconds; that reading is not modelled.
- The `vault` column's type conversions are left out. The vault value is stored and returned as the JSON given.
- JSON arrays and fractional numbers are left out of `Values.Json`. Numbers are integers, so `isInt` on a fractional number, and lodash paths through arrays, are not modelled.
- express-validator's field paths are read for plain keys only. A key containing `.` or `[` is not modelled.
- JWT encoding, HMAC internals and the `iat` rounding of jsonwebtoken are left out. A token is a claims record with a symbolic tag, and time is an integer parameter.
- PBKDF2, SHA-256, WebCrypto and TextEncoder are left out. PBKDF2 is a function parameter that may fail.
- String lengths count characters. JavaScript counts UTF-16 code units, which differ for characters outside the Basic Multilingual Plane (the password length check, the username pattern).
- React state plumbing is left out. A submission's effect is its error message, its request and its loading flag. `onSettled` clearing the error later, the axios wrappers (web/src/api) and localStorage (web/src/utils/token.ts) are not part of this model.
- The presentational components are left out.
- Postgres.Transaction: the model names the fault with a `Thrown` tag. It does not model the driver's error objects.
- Routers.PutVaultRoute: `updateVaultValidation` is an arbitrary verdict, so nothing is stated about which bodies it accepts.
- Routers.ChangeMasterPasswordRoute: its handler is opaque, so only the gating and the order are stated.
- Routers.GetAuth: `authHandler` is opaque, so only the gating is stated.
- Validators.NumericIntervalRule: JSON numbers are exact integers. JSON.parse rounds a literal above 2^53 to a double, so a stored large interval may differ from the digits sent, and a literal just below 10^21 can round up to 10^21 and be refused. This rounding is not modelled.
- Values.IntTextRoundTrip: holds of exact integers. The rounding of large literals described in the line above is not modelled.
- The login page imports `loginAPI` from web/src/api/auth.ts, but that file exports only `registerAPI`, so as written the login page has no request function. The model takes the evidently intended POST of `{username, masterToken}` to the login route (`EndToEnd.SignupThenLogin`, `EndToEnd.LoginNavigatesExactlyOnSuccess`).
- The schema is not visible, so the start value of the `id` serial is assumed to be 1 (`Store.Empty`, and `1 <= id` in `Store.Valid`). `SettingsController.ValidIdsAreTruthy` rests on this: with ids from 1, the `!vaultId` guard never fires for an existing account.

=== FILE: auth_controller.dfy ===
/**
  Registration and login (server/src/controllers/auth.ts) as store
  transitions run inside `transaction`, plus the session they issue.
 */
module AuthController {

  import opened Values
  import opened Postgres
  import opened ResponseTemplates
  import opened Store
  import Jwt

  const UserExists := "User already exists!"
  const InvalidCredentials := "Invalid username or master token!"

  /** The session cookie for `username`, expiring `autoLockTimeInterval` seconds after `now`. */
  function Session(secret: Jwt.Secret, username: Json, autoLockTimeInterval: int, now: int): Jwt.Token
  {
    Jwt.Sign(secret, username, autoLockTimeInterval, now)
  }

  /**
    The operations of `registerHandler`: look the username up, then insert
    the account and its settings. The queries see the username's parameter
    text; the session claims the body's value itself.
   */
  function RegisterOperations(s: State, username: Json, masterToken: string, schema: Schema,
                              secret: Jwt.Secret, now: int, io: Io): OpsResult<State, Response>
    requires IsScalar(username)
  {
    var key := ParamText(username);
    if QueryFails(io, 0) then Threw(QueryFailed(0))
    else if key in s.vaults then Returned(SendClientSideError(UserExists, 401), s)
    else if QueryFails(io, 1) then Threw(QueryFailed(1))
    else
      var id := s.nextId;
      var withVault := s.(vaults := s.vaults[key := Account(id, masterToken, schema.defaultVault)], nextId := id + 1);
      if QueryFails(io, 2) then Threw(QueryFailed(2))
      else
        var row := schema.defaultSettings;
        var withSettings := withVault.(settings := withVault.settings[id := row]);
        var sent := SendSuccessResponse("Registration successful!", 201);
        Returned(WithSessionCookie(sent, Session(secret, username, row.autoLockTimeInterval, now)), withSettings)
  }

  /**
    Whether the response is the registration success carrying the session
    the server signs with `secret` at `now` for `username`, lasting
    `lifetime` seconds.
   */
  predicate IsRegistered(r: Response, secret: Jwt.Secret, username: Json, lifetime: int, now: int)
  {
    && r.status == 201 && r.body == map["message" := JStr("Registration successful!")]
    && r.sessionCookie == Some(Jwt.Sign(secret, username, lifetime, now))
  }

  /**
    `registerHandler`. An existing username gets 401 "User already
    exists!" and nothing is inserted; a fresh one gets exactly one new
    account `(username, masterToken)` and one settings row keyed by its new
    id, and 201 with a session whose lifetime is that row's interval.
    Whatever throws, nothing persists. The row is keyed by the username's
    parameter text, while the session claims the body's value unchanged.
    The validation in front of the handler admits only booleans, numbers
    and strings (`Validators.RegisterValidation`).
   */
  function Register(s: State, username: Json, masterToken: string, schema: Schema,
                    secret: Jwt.Secret, now: int, io: Io): (h: Handled)
    requires IsScalar(username)
    ensures ParamText(username) in s.vaults ==> h.store == s
    ensures ParamText(username) in s.vaults && h.returned.Some? ==> h.returned.value == SendClientSideError(UserExists, 401)
    ensures h.error.Some? ==> h.store == s
    ensures ParamText(username) !in s.vaults && h.error.None? ==>
              var key := ParamText(username);
              && h.store.vaults.Keys == s.vaults.Keys + {key}
              && (forall u :: u in s.vaults ==> h.store.vaults[u] == s.vaults[u])
              && h.store.vaults[key].masterToken == masterToken && h.store.vaults[key].vault == schema.defaultVault
              && h.store.vaults[key].id == s.nextId && h.store.nextId == s.nextId + 1
              && h.store.settings.Keys == s.settings.Keys + {s.nextId}
              && h.store.settings[s.nextId] == schema.defaultSettings
              && (forall id :: id in s.settings && id != s.nextId ==> h.store.settings[id] == s.settings[id])
    ensures ParamText(username) !in s.vaults && h.returned.Some? ==>
              IsRegistered(h.returned.value, secret, username, schema.defaultSettings.autoLockTimeInterval, now)
  {
    Transaction(s, io, (st: State) => RegisterOperations(st, username, masterToken, schema, secret, now, io))
  }

  /** Registration keeps the store invariant: the new id is fresh, so no settings row is shared or overwritten. */
  lemma RegisterKeepsValid(s: State, username: Json, masterToken: string, schema: Schema,
                           secret: Jwt.Secret, now: int, io: Io)
    requires Valid(s) && IsScalar(username)
    ensures Valid(Register(s, username, masterToken, schema, secret, now, io).store)
  {
    var h := Register(s, username, masterToken, schema, secret, now, io);
    var key := ParamText(username);
    if key !in s.vaults && h.error.None? {
      var t := h.store;
      forall u | u in t.vaults
        ensures 1 <= t.vaults[u].id < t.nextId && t.vaults[u].id in t.settings
      {
        if u != key {
          assert t.vaults[u] == s.vaults[u];
        }
      }
    }
  }

  /** The operations of `loginHandler`: match username and token, then read the interval. */
  function LoginOperations(s: State, username: Json, masterToken: string,
                           secret: Jwt.Secret, now: int, io: Io): OpsResult<State, Response>
    requires IsScalar(username)
  {
    var key := ParamText(username);
    if QueryFails(io, 0) then Threw(QueryFailed(0))
    else if !(key in s.vaults && s.vaults[key].masterToken == masterToken) then
      Returned(SendClientSideError(InvalidCredentials, 401), s)
    else if QueryFails(io, 1) then Threw(QueryFailed(1))
    else
      var id := s.vaults[key].id;
      if id !in s.settings then Threw(RowMissing)
      else
        var sent := SendSuccessResponse("Login successful!", 200);
        Returned(WithSessionCookie(sent, Session(secret, username, s.settings[id].autoLockTimeInterval, now)), s)
  }

  predicate Matches(s: State, username: string, masterToken: string)
  {
    username in s.vaults && s.vaults[username].masterToken == masterToken
  }

  /**
    Whether the response is the login success carrying the session the
    server signs with `secret` at `now` for `username`, lasting `lifetime`
    seconds.
   */
  predicate IsLoggedIn(r: Response, secret: Jwt.Secret, username: Json, lifetime: int, now: int)
  {
    && r.status == 200 && r.body == map["message" := JStr("Login successful!")]
    && r.sessionCookie == Some(Jwt.Sign(secret, username, lifetime, now))
  }

  /**
    `loginHandler`. It never changes the store. It succeeds only when an
    account has exactly this username and this token, and then with a
    session lasting that account's stored interval; every other attempt
    gets the one 401 "Invalid username or master token!". The account is
    found by the username's parameter text; the session claims the body's
    value unchanged.
   */
  function Login(s: State, username: Json, masterToken: string,
                 secret: Jwt.Secret, now: int, io: Io): (h: Handled)
    requires IsScalar(username)
    ensures h.store == s
    ensures h.returned.Some? && !Matches(s, ParamText(username), masterToken) ==>
              h.returned.value == SendClientSideError(InvalidCredentials, 401)
    ensures h.returned.Some? && Matches(s, ParamText(username), masterToken) ==>
              SettingsOf(s, ParamText(username)).Some?
              && IsLoggedIn(h.returned.value, secret, username, SettingsOf(s, ParamText(username)).value.autoLockTimeInterval, now)
    ensures io == Reliable ==>
              (h.returned.Some? <==> !Matches(s, ParamText(username), masterToken) || SettingsOf(s, ParamText(username)).Some?)
  {
    Transaction(s, io, (st: State) => LoginOperations(st, username, masterToken, secret, now, io))
  }

  /** An unknown username and a wrong token get the same answer, so usernames cannot be enumerated. */
  lemma LoginFailureIsUniform(s: State, unknown: Json, known: Json, t1: string, t2: string,
                              secret: Jwt.Secret, now: int)
    requires IsScalar(unknown) && IsScalar(known)
    requires ParamText(unknown) !in s.vaults
    requires ParamText(known) in s.vaults && s.vaults[ParamText(known)].masterToken != t2
    ensures Login(s, unknown, t1, secret, now, Reliable) == Login(s, known, t2, secret, now, Reliable)
  {
  }

  /** Registering `(u, t)` and then logging in with `(u, t)` succeeds, with the default session lifetime. */
  lemma RegisterThenLogin(s: State, username: Json, masterToken: string, schema: Schema,
                          secret: Jwt.Secret, now: int, later: int)
    requires Valid(s) && IsScalar(username) && ParamText(username) !in s.vaults
    ensures var h := Register(s, username, masterToken, schema, secret, now, Reliable);
            var l := Login(h.store, username, masterToken, secret, later, Reliable);
            && l.returned.Some?
            && IsLoggedIn(l.returned.value, secret, username, schema.defaultSettings.autoLockTimeInterval, later)
  {
    var h := Register(s, username, masterToken, schema, secret, now, Reliable);
    assert h.error.None?;
    assert SettingsOf(h.store, ParamText(username)) == Some(schema.defaultSettings);
  }

  /**
    The response is sent inside the transaction, before COMMIT: when COMMIT
    fails the client already holds a 201 and a session although no account
    was stored.
   */
  lemma RegisterReplyPrecedesCommit(s: State, username: Json, masterToken: string, schema: Schema,
                                    secret: Jwt.Secret, now: int)
    requires IsScalar(username) && ParamText(username) !in s.vaults
    ensures var h := Register(s, username, masterToken, schema, secret, now, Reliable.(commitFails := true));
            && h.returned.Some? && IsRegistered(h.returned.value, secret, username, schema.defaultSettings.autoLockTimeInterval, now)
            && h.error == Some(CommitFailed)
            && ParamText(username) !in h.store.vaults
  {
  }

  /** When the settings insert throws after the account insert, the account does not persist either. */
  lemma RegisterIsAtomic(s: State, username: Json, masterToken: string, schema: Schema,
                         secret: Jwt.Secret, now: int)
    requires IsScalar(username) && ParamText(username) !in s.vaults
    ensures var h := Register(s, username, masterToken, schema, secret, now, Reliable.(failingQuery := Some(2)));
            && h.returned.None? && h.error == Some(QueryFailed(2)) && h.store == s
            && Release in h.log
  {
  }
}

=== FILE: auth_gate.dfy ===
/**
  The `checkAuth` middleware (server/src/middlewares/auth.ts): the session
  cookie must be present, must verify under the server's secret before its
  expiry, and must name an account that still exists; only then is the
  username bound to the request as its principal and `next()` called.
 */
module AuthGate {

  import opened Values
  import opened Postgres
  import opened ResponseTemplates
  import opened Store
  import Jwt

  const NoCookie := "Authorization cookies do not exist"
  const BadToken := "Invalid or expired jwt token"

  /**
    What the gate did: the response it sent, the principal it bound when it
    called `next()`, the error it passed to `next(err)`, the store after its
    transaction, and the client log of that transaction (empty when no
    transaction ran).
   */
  datatype GateResult = GateResult(sent: Option<Response>, principal: Option<string>, forwarded: Option<Thrown>,
                                   store: State, log: seq<TxEvent>)

  /** `!jwtToken`: the cookie is missing or is the empty string. */
  predicate Falsy(cookie: Option<Jwt.CookieValue>)
  {
    cookie.None? || cookie.value == Jwt.Malformed("")
  }

  /** The reply when the token verified but its account is gone, or the binding to call `next` with. */
  datatype Binding = Refused(response: Response) | Bound(username: string)

  /**
    The operations of `checkAuth`: select the row whose username is the
    claim's parameter text, then refuse unless there is one and its username
    is `===` the claim. A boolean or numeric claim may select a row, but a
    string is never `===` it; `null` selects no row; and whatever row the
    JSON text of an object might select, a string is never `===` an object,
    so such claims are modelled as selecting none.
   */
  function LookupOperations(s: State, claim: Json, io: Io): OpsResult<State, Binding>
  {
    var rows := if IsScalar(claim) && ParamText(claim) in s.vaults then [ParamText(claim)] else [];
    if QueryFails(io, 0) then Threw(QueryFailed(0))
    else if |rows| == 0 || JStr(rows[0]) != claim then Returned(Refused(SendClientSideError(BadToken, 401)), s)
    else Returned(Bound(rows[0]), s)
  }

  /** Whether this cookie carries a token the server signed that is still valid at `now` and claims the string `username`. */
  predicate Authentic(cookie: Option<Jwt.CookieValue>, secret: Jwt.Secret, now: int, username: string)
  {
    cookie.Some? && Jwt.Verify(secret, cookie.value, now) == Some(JStr(username))
  }

  /**
    `checkAuth`: a missing cookie is refused with 401 "Authorization cookies
    do not exist" before any store access; a token that fails verification
    (bad tag or expired) and a token whose account is gone both get 401
    "Invalid or expired jwt token". Only a verified token whose claim is
    the string username of an existing account binds that username as the
    principal; a boolean or numeric claim is refused even when its text
    names an account. The store is never changed.
   */
  function CheckAuth(s: State, cookie: Option<Jwt.CookieValue>, secret: Jwt.Secret, now: int, io: Io): (g: GateResult)
    ensures g.store == s
    ensures Falsy(cookie) ==> g == GateResult(Some(SendClientSideError(NoCookie, 401)), None, None, s, [])
    ensures !Falsy(cookie) && Jwt.Verify(secret, cookie.value, now).None? ==>
              g == GateResult(Some(SendClientSideError(BadToken, 401)), None, None, s, [])
    ensures g.principal.Some? ==> Authentic(cookie, secret, now, g.principal.value) && g.principal.value in s.vaults
    ensures g.sent.Some? ==> g.principal.None? && g.sent.value.status == 401
    ensures g.sent.Some? && !Falsy(cookie) ==> g.sent.value == SendClientSideError(BadToken, 401)
    ensures io == Reliable && !Falsy(cookie) && Jwt.Verify(secret, cookie.value, now).Some? ==>
              var c := Jwt.Verify(secret, cookie.value, now).value;
              && (c.JStr? && c.s in s.vaults ==> g.principal == Some(c.s) && g.sent.None? && g.forwarded.None?)
              && (!(c.JStr? && c.s in s.vaults) ==> g.sent == Some(SendClientSideError(BadToken, 401)) && g.principal.None?)
  {
    if Falsy(cookie) then GateResult(Some(SendClientSideError(NoCookie, 401)), None, None, s, [])
    else
      match Jwt.Verify(secret, cookie.value, now)
      case None => GateResult(Some(SendClientSideError(BadToken, 401)), None, None, s, [])
      case Some(claim) =>
        var t: TxResult<State, Binding> := Transaction(s, io, (st: State) => LookupOperations(st, claim, io));
        match t.returned
        case None => GateResult(None, None, t.error, t.store, t.log)
        case Some(Refused(r)) => GateResult(Some(r), None, t.error, t.store, t.log)
        case Some(Bound(u)) => GateResult(None, Some(u), t.error, t.store, t.log)
  }

  /**
    `next()` is called inside the transaction, before COMMIT: if COMMIT then
    fails, `next` is called a second time, with the error.
   */
  lemma AdmitPrecedesCommit(s: State, cookie: Option<Jwt.CookieValue>, secret: Jwt.Secret, now: int, username: string)
    requires Authentic(cookie, secret, now, username) && username in s.vaults
    ensures var g := CheckAuth(s, cookie, secret, now, Reliable.(commitFails := true));
            g.principal == Some(username) && g.forwarded == Some(CommitFailed)
  {
  }

  /** A session issued before its account was deleted is refused afterwards, even before it expires. */
  lemma DeletedAccountSessionRefused(s: State, username: string, secret: Jwt.Secret, issuedAt: int, lifetime: int, now: int)
    requires username !in s.vaults
    ensures var cookie := Some(Jwt.Signed(Jwt.Sign(secret, JStr(username), lifetime, issuedAt)));
            var g := CheckAuth(s, cookie, secret, now, Reliable);
            g.principal.None? && g.sent.Some? && g.sent.value.status == 401
  {
  }

  /**
    A session whose username claim is a boolean or a number (registration
    accepts one whose text matches the username pattern) is never admitted:
    its lookup may find the account, but the stored string is not `===` the
    claim, so the gate answers 401.
   */
  lemma NonStringClaimRefused(s: State, claim: Json, secret: Jwt.Secret, issuedAt: int, lifetime: int, now: int, io: Io)
    requires !claim.JStr?
    ensures var g := CheckAuth(s, Some(Jwt.Signed(Jwt.Sign(secret, claim, lifetime, issuedAt))), secret, now, io);
            && g.principal.None?
            && (io == Reliable ==> g.sent == Some(SendClientSideError(BadToken, 401)))
  {
  }
}

=== FILE: authorization.dfy ===
/**
  The `Authorization: Bearer <token>` header parser
  (server/src/utils/authorization.ts), built on a model of JavaScript's
  `String.prototype.split` with a one-character separator.
 */
module Authorization {

  import opened Values
  import opened ResponseTemplates

  /** `parts.join(sep)` for a non-empty list of parts. */
  function Join(parts: seq<string>, sep: char): string
    requires |parts| >= 1
  {
    if |parts| == 1 then parts[0] else parts[0] + [sep] + Join(parts[1..], sep)
  }

  predicate NoSeparator(parts: seq<string>, sep: char)
  {
    forall i :: 0 <= i < |parts| ==> sep !in parts[i]
  }

  /**
    `s.split(sep)`: the maximal separator-free pieces between occurrences
    of `sep`, empty pieces included, so the pieces joined by `sep` give `s`
    back.
   */
  function Split(s: string, sep: char): (parts: seq<string>)
    ensures |parts| >= 1
    ensures NoSeparator(parts, sep)
    ensures Join(parts, sep) == s
    decreases |s|
  {
    if |s| == 0 then [""]
    else
      var rest := Split(s[1..], sep);
      if s[0] == sep then
        assert Join([""] + rest, sep) == [sep] + Join(rest, sep) by {
          assert ([""] + rest)[1..] == rest;
        }
        [""] + rest
      else
        var parts := [[s[0]] + rest[0]] + rest[1..];
        assert Join(parts, sep) == [s[0]] + Join(rest, sep) by {
          assert parts[1..] == rest[1..];
        }
        assert forall i :: 1 <= i < |parts| ==> parts[i] == rest[i];
        parts
  }

  /** Splitting is the only separator-free decomposition: split undoes join. */
  lemma {:induction false} SplitUnique(s: string, sep: char, parts: seq<string>)
    requires |parts| >= 1 && NoSeparator(parts, sep) && Join(parts, sep) == s
    ensures Split(s, sep) == parts
    decreases |s|
  {
    assert |parts| > 1 ==> s == parts[0] + [sep] + Join(parts[1..], sep);
    assert s[..|parts[0]|] == parts[0];
    if |s| == 0 {
    } else if s[0] == sep {
      assert |parts[0]| == 0;
      assert |parts| > 1;
      assert s[1..] == Join(parts[1..], sep);
      SplitUnique(s[1..], sep, parts[1..]);
      assert parts == [""] + parts[1..];
    } else {
      assert |parts[0]| > 0;
      var tail := [parts[0][1..]] + parts[1..];
      assert NoSeparator(tail, sep) by {
        forall i | 0 <= i < |tail|
          ensures sep !in tail[i]
        {
          if i == 0 {
            assert forall c :: c in parts[0][1..] ==> c in parts[0];
          } else {
            assert tail[i] == parts[i];
          }
        }
      }
      if |parts| > 1 {
        assert tail[1..] == parts[1..];
        assert Join(tail, sep) == parts[0][1..] + [sep] + Join(parts[1..], sep);
      }
      assert s == [parts[0][0]] + Join(tail, sep);
      assert Join(tail, sep) == s[1..];
      SplitUnique(s[1..], sep, tail);
      assert s[0] == parts[0][0];
      assert parts[0] == [s[0]] + tail[0];
      assert parts == [parts[0]] + tail[1..];
    }
  }

  /** Outcome of `checkAndGetJWTToken`: the token text, or the 401 response it sends. */
  datatype HeaderResult = TokenText(token: string) | Rejected(response: Response)

  /**
    `checkAndGetJWTToken`: an absent header is "Missing Authorization
    Header"; a header that does not split on single spaces into exactly
    `"Bearer"` and one more piece is "Invalid Authorization Header"; both
    are 401. Otherwise the second piece is the token. The scheme name is
    case-sensitive and exactly one space is accepted.
   */
  function CheckAndGetJwtToken(header: Option<string>): (r: HeaderResult)
    ensures header.None? ==> r == Rejected(SendClientSideError("Missing Authorization Header", 401))
    ensures r.TokenText? ==> header == Some("Bearer " + r.token) && ' ' !in r.token
    ensures r.Rejected? && header.Some? ==> r.response == SendClientSideError("Invalid Authorization Header", 401)
  {
    match header
    case None => Rejected(SendClientSideError("Missing Authorization Header", 401))
    case Some(h) =>
      var parts := Split(h, ' ');
      if |parts| != 2 || parts[0] != "Bearer" then
        Rejected(SendClientSideError("Invalid Authorization Header", 401))
      else
        assert Join(parts[1..], ' ') == parts[1];
        assert "Bearer" + " " == "Bearer ";
        assert h == "Bearer " + parts[1];
        assert ' ' !in parts[1];
        TokenText(parts[1])
  }

  /** For every token without spaces, `"Bearer " + token` parses back to that token. */
  lemma BearerRoundTrip(token: string)
    requires ' ' !in token
    ensures CheckAndGetJwtToken(Some("Bearer " + token)) == TokenText(token)
  {
    var parts := ["Bearer", token];
    assert Join(parts, ' ') == "Bearer " + token;
    SplitUnique("Bearer " + token, ' ', parts);
  }

  /** A header is accepted exactly when it is `"Bearer "` followed by a space-free token. */
  lemma AcceptedIff(h: string)
    ensures CheckAndGetJwtToken(Some(h)).TokenText?
            <==> |h| >= 7 && h[..7] == "Bearer " && ' ' !in h[7..]
  {
    if |h| >= 7 && h[..7] == "Bearer " && ' ' !in h[7..] {
      assert h == "Bearer " + h[7..];
      BearerRoundTrip(h[7..]);
    }
    var r := CheckAndGetJwtToken(Some(h));
    if r.TokenText? {
      assert h == "Bearer " + r.token;
      assert h[7..] == r.token;
    }
  }

  /** The lowercase scheme and a doubled space are both refused. */
  lemma SchemeIsCaseSensitive(token: string)
    ensures CheckAndGetJwtToken(Some("bearer " + token)).Rejected?
    ensures CheckAndGetJwtToken(Some("Bearer  " + token)).Rejected?
  {
    AcceptedIff("bearer " + token);
    AcceptedIff("Bearer  " + token);
    assert ("Bearer  " + token)[7] == ' ';
  }
}

=== FILE: client_hooks.dfy ===
/**
  The submit decisions of the signup and login pages
  (web/src/hooks/useSignupPage.tsx, web/src/hooks/useLoginPage.tsx): which
  checks run in which order, what request leaves the client, and what the
  success callbacks do with the server's answer.
 */
module ClientHooks {

  import opened Values
  import opened Crypto
  import ResponseTemplates
  import AuthController
  import Jwt

  datatype SignupForm = SignupForm(username: string, masterPassword: string, confirmMasterPassword: string)

  datatype LoginForm = LoginForm(username: string, masterPassword: string)

  /** The mutation's variables, the only data sent to the server. */
  datatype Credentials = Credentials(username: string, masterToken: string)

  /**
    The effect of one submission: the error message it set (if any), the
    request it started (if any), and the loading flag it leaves behind.
   */
  datatype Submission = Submission(error: Option<string>, request: Option<Credentials>, loading: bool)

  const PasswordsDiffer := "Passwords do not match"
  const PasswordTooShort := "Master password must be at least 8 characters long"
  const SignupFailed := "An error occurred during signup"
  const LoginFailed := "An error occurred during login"
  const MinPasswordLength := 8

  /**
    `handleSignup`: a password mismatch is reported before the length
    check; only a matching password of at least 8 characters is derived,
    and only a successful derivation starts a request, carrying the
    username and the master token. Loading is off on every exit.
   */
  function HandleSignup(pbkdf2: Pbkdf2, form: SignupForm): (r: Submission)
    ensures !r.loading
    ensures r.request.Some? <==> r.error.None?
    ensures form.masterPassword != form.confirmMasterPassword ==> r == Submission(Some(PasswordsDiffer), None, false)
    ensures form.masterPassword == form.confirmMasterPassword && |form.masterPassword| < MinPasswordLength ==>
              r == Submission(Some(PasswordTooShort), None, false)
    ensures r.request.Some? ==>
              && form.masterPassword == form.confirmMasterPassword && |form.masterPassword| >= MinPasswordLength
              && r.request.value.username == form.username
              && Some(r.request.value.masterToken) == DeriveMasterToken(pbkdf2, form.username, form.masterPassword)
    ensures form.masterPassword == form.confirmMasterPassword && |form.masterPassword| >= MinPasswordLength ==>
              (r.error == Some(SignupFailed) <==> DeriveMasterToken(pbkdf2, form.username, form.masterPassword).None?)
  {
    if form.masterPassword != form.confirmMasterPassword then Submission(Some(PasswordsDiffer), None, false)
    else if |form.masterPassword| < 8 then Submission(Some(PasswordTooShort), None, false)
    else
      match DeriveMasterToken(pbkdf2, form.username, form.masterPassword)
      case None => Submission(Some(SignupFailed), None, false)
      case Some(masterToken) => Submission(None, Some(Credentials(form.username, masterToken)), false)
  }

  /**
    `handleLogin`: no check on the password before deriving; a successful
    derivation starts a request with the username and the master token, a
    failed one sets "An error occurred during login". Loading is off on
    every exit.
   */
  function HandleLogin(pbkdf2: Pbkdf2, form: LoginForm): (r: Submission)
    ensures !r.loading
    ensures r.request.Some? <==> DeriveMasterToken(pbkdf2, form.username, form.masterPassword).Some?
    ensures r.request.None? ==> r.error == Some(LoginFailed)
    ensures r.request.Some? ==>
              && r.error.None?
              && r.request.value.username == form.username
              && Some(r.request.value.masterToken) == DeriveMasterToken(pbkdf2, form.username, form.masterPassword)
  {
    match DeriveMasterToken(pbkdf2, form.username, form.masterPassword)
    case None => Submission(Some(LoginFailed), None, false)
    case Some(masterToken) => Submission(None, Some(Credentials(form.username, masterToken)), false)
  }

  /** The login mutation's `onSuccess`: navigate to `/dashboard` exactly when the body's `message` is truthy. */
  predicate LoginNavigates(body: Option<Json>)
  {
    Truthy(Get(body, "message"))
  }

  /** The signup mutation's `onSuccess`: the token it would store, taken from a truthy `jwtToken` in the body. */
  function SignupStoredToken(body: Option<Json>): Option<Json>
  {
    if Truthy(Get(body, "jwtToken")) then Get(body, "jwtToken") else None
  }

  /** Signing up and logging in with the same username and password send the same credentials. */
  lemma SignupAndLoginAgree(pbkdf2: Pbkdf2, username: string, password: string)
    requires |password| >= MinPasswordLength
    ensures HandleSignup(pbkdf2, SignupForm(username, password, password)).request
            == HandleLogin(pbkdf2, LoginForm(username, password)).request
  {
  }

  /**
    The password reaches the request only through PBKDF2: two passwords
    whose derivations agree at both stages produce the same request.
   */
  lemma PasswordOnlyThroughPbkdf2(pbkdf2: Pbkdf2, username: string, p1: string, p2: string)
    requires pbkdf2(p1, username, VaultKeyIterations, "SHA-256", 256) == pbkdf2(p2, username, VaultKeyIterations, "SHA-256", 256)
    requires forall salt :: pbkdf2(p1, salt, MasterTokenIterations, "SHA-256", 256) == pbkdf2(p2, salt, MasterTokenIterations, "SHA-256", 256)
    ensures HandleLogin(pbkdf2, LoginForm(username, p1)).request == HandleLogin(pbkdf2, LoginForm(username, p2)).request
  {
  }

  /** The body of a successful login always sends the client to the dashboard. */
  lemma LoginSuccessNavigates(r: ResponseTemplates.Response, secret: Jwt.Secret, username: Json, lifetime: int, now: int)
    requires AuthController.IsLoggedIn(r, secret, username, lifetime, now)
    ensures LoginNavigates(Some(JObj(r.body)))
  {
  }

  /**
    The body of a successful registration has no `jwtToken` (the session
    travels as a cookie), so the signup page never stores a token.
   */
  lemma SignupStoresNoToken(r: ResponseTemplates.Response, secret: Jwt.Secret, username: Json, lifetime: int, now: int)
    requires AuthController.IsRegistered(r, secret, username, lifetime, now)
    ensures SignupStoredToken(Some(JObj(r.body))).None?
  {
  }
}

=== FILE: crypto.dfy ===
/**
  The client's key derivation (web/src/utils/crypto.ts): lowercase Base16
  as in section 8 of RFC 4648, and two PBKDF2 (section 5.2 of RFC 8018)
  derivations chained through it. PBKDF2 itself, with the UTF-8 encoding
  of its text arguments, is a parameter; `None` stands for a WebCrypto
  call that throws.
 */
module Crypto {

  import opened Values

  type byte = x: int | 0 <= x < 256

  /** `crypto.subtle.deriveBits` for PBKDF2: password, salt, iterations, hash name, length in bits. */
  type Pbkdf2 = (string, string, nat, string, nat) -> Option<seq<byte>>

  /** The lowercase Base16 alphabet `0-9a-f`. */
  predicate IsHexDigit(c: char)
  {
    '0' <= c <= '9' || 'a' <= c <= 'f'
  }

  /** The alphabet's character for the value `d`. */
  function HexDigit(d: nat): (c: char)
    requires d < 16
    ensures IsHexDigit(c)
  {
    if d < 10 then ('0' as int + d) as char else ('a' as int + d - 10) as char
  }

  /** `n.toString(16)`: lowercase hex digits without padding. */
  function ToBase16(n: nat): (r: string)
    ensures 1 <= |r|
    ensures forall k :: 0 <= k < |r| ==> IsHexDigit(r[k])
  {
    if n < 16 then [HexDigit(n)] else ToBase16(n / 16) + [HexDigit(n % 16)]
  }

  /** `s.padStart(width, fill)` with a one-character fill. */
  function PadStart(s: string, width: nat, fill: char): (r: string)
    ensures |r| == if |s| < width then width else |s|
    ensures r[|r| - |s|..] == s
    ensures forall k :: 0 <= k < |r| - |s| ==> r[k] == fill
  {
    if |s| < width then seq(width - |s|, _ => fill) + s else s
  }

  /** One byte as `b.toString(16).padStart(2, "0")`: always the high nibble's digit, then the low one's. */
  function ByteToHex(b: byte): (r: string)
    ensures r == [HexDigit(b / 16), HexDigit(b % 16)]
  {
    if b < 16 then
      assert ToBase16(b) == [HexDigit(b)];
      assert HexDigit(0) == '0';
      PadStart(ToBase16(b), 2, '0')
    else
      assert ToBase16(b / 16) == [HexDigit(b / 16)];
      PadStart(ToBase16(b), 2, '0')
  }

  /** `bufferToHex`: each byte's two digits, in order, joined without separator. */
  function BufferToHex(bytes: seq<byte>): (r: string)
    ensures |r| == 2 * |bytes|
  {
    if |bytes| == 0 then "" else ByteToHex(bytes[0]) + BufferToHex(bytes[1..])
  }

  /** Byte `i` of the buffer becomes characters `2i` and `2i + 1` of the text. */
  lemma HexLayout(bytes: seq<byte>, i: nat)
    requires i < |bytes|
    ensures BufferToHex(bytes)[2 * i] == HexDigit(bytes[i] / 16)
    ensures BufferToHex(bytes)[2 * i + 1] == HexDigit(bytes[i] % 16)
  {
    var before, from := bytes[..i], bytes[i..];
    assert bytes == before + from;
    HexOfConcat(before, from);
    EncodeCons(from);
    assert from[0] == bytes[i];
    var head := [HexDigit(bytes[i] / 16), HexDigit(bytes[i] % 16)];
    AtPrefixEnd(BufferToHex(before), head, BufferToHex(from[1..]));
  }

  /** The two characters right after a prefix. */
  lemma AtPrefixEnd(prefix: string, head: string, t: string)
    requires |head| == 2
    ensures (prefix + (head + t))[|prefix|] == head[0]
    ensures (prefix + (head + t))[|prefix| + 1] == head[1]
  {
  }

  /** The encoding of a non-empty buffer: the first byte's two digits, then the rest. */
  lemma EncodeCons(bytes: seq<byte>)
    requires |bytes| > 0
    ensures BufferToHex(bytes) == [HexDigit(bytes[0] / 16), HexDigit(bytes[0] % 16)] + BufferToHex(bytes[1..])
  {
  }

  /** The value of a character of the alphabet. */
  function NibbleValue(c: char): (v: nat)
    requires IsHexDigit(c)
    ensures v < 16 && HexDigit(v) == c
  {
    if c <= '9' then c as int - '0' as int else c as int - 'a' as int + 10
  }

  lemma NibbleOfDigit(d: nat)
    requires d < 16
    ensures NibbleValue(HexDigit(d)) == d
  {
  }

  /** The decoder of the lowercase alphabet: `None` for odd length or a character outside it. */
  function HexToBuffer(s: string): (r: Option<seq<byte>>)
    ensures r.Some? ==> 2 * |r.value| == |s|
  {
    if |s| == 0 then Some([])
    else if |s| < 2 || !IsHexDigit(s[0]) || !IsHexDigit(s[1]) then None
    else
      match HexToBuffer(s[2..])
      case None => None
      case Some(rest) => Some([NibbleValue(s[0]) * 16 + NibbleValue(s[1])] + rest)
  }

  /** Decoding two digits in front of a text: one byte in front of that text's decoding. */
  lemma DecodePair(c0: char, c1: char, t: string)
    requires IsHexDigit(c0) && IsHexDigit(c1)
    ensures HexToBuffer([c0, c1] + t) ==
            if HexToBuffer(t).None? then None else Some([NibbleValue(c0) * 16 + NibbleValue(c1)] + HexToBuffer(t).value)
  {
    var s := [c0, c1] + t;
    assert s[0] == c0 && s[1] == c1 && s[2..] == t;
  }

  /** Decoding the encoding gives the bytes back. */
  lemma {:induction false} HexRoundTrip(bytes: seq<byte>)
    ensures HexToBuffer(BufferToHex(bytes)) == Some(bytes)
  {
    if |bytes| > 0 {
      var b, tail := bytes[0], bytes[1..];
      var hi, lo := b / 16, b % 16;
      assert BufferToHex(bytes) == [HexDigit(hi), HexDigit(lo)] + BufferToHex(tail);
      HexRoundTrip(tail);
      NibbleOfDigit(hi);
      NibbleOfDigit(lo);
      DecodePair(HexDigit(hi), HexDigit(lo), BufferToHex(tail));
      assert hi * 16 + lo == b;
      assert [b] + tail == bytes;
    }
  }

  /** Text the decoder accepts, when non-empty, starts with two digits of the alphabet whose value is the first byte. */
  lemma DecodeCons(s: string)
    requires |s| > 0 && HexToBuffer(s).Some?
    ensures |s| >= 2 && IsHexDigit(s[0]) && IsHexDigit(s[1]) && HexToBuffer(s[2..]).Some?
    ensures HexToBuffer(s).value == [NibbleValue(s[0]) * 16 + NibbleValue(s[1])] + HexToBuffer(s[2..]).value
  {
  }

  lemma Nibbles(hi: nat, lo: nat)
    requires hi < 16 && lo < 16
    ensures (hi * 16 + lo) / 16 == hi && (hi * 16 + lo) % 16 == lo
  {
  }

  lemma JoinTwo(s: string, c0: char, c1: char, t: string)
    requires |s| >= 2 && s[0] == c0 && s[1] == c1 && s[2..] == t
    ensures [c0, c1] + t == s
  {
    assert s == [s[0], s[1]] + s[2..];
  }

  /** The encoding is canonical: text the decoder accepts is exactly the encoding of what it decodes to. */
  lemma {:induction false} DecodeThenEncode(s: string, bytes: seq<byte>)
    requires HexToBuffer(s) == Some(bytes)
    ensures BufferToHex(bytes) == s
  {
    if |s| > 0 {
      DecodeCons(s);
      var hi, lo, t := NibbleValue(s[0]), NibbleValue(s[1]), s[2..];
      assert bytes[0] == hi * 16 + lo && bytes[1..] == HexToBuffer(t).value;
      DecodeThenEncode(t, bytes[1..]);
      Nibbles(hi, lo);
      EncodeCons(bytes);
      JoinTwo(s, HexDigit(hi), HexDigit(lo), t);
    }
  }

  /** Distinct byte strings have distinct hex encodings. */
  lemma HexInjective(a: seq<byte>, b: seq<byte>)
    requires BufferToHex(a) == BufferToHex(b)
    ensures a == b
  {
    HexRoundTrip(a);
    HexRoundTrip(b);
  }

  /** The encoding of a concatenation is the concatenation of the encodings. */
  lemma {:induction false} HexOfConcat(a: seq<byte>, b: seq<byte>)
    ensures BufferToHex(a + b) == BufferToHex(a) + BufferToHex(b)
  {
    if |a| == 0 {
      assert a + b == b;
    } else {
      var ab := a + b;
      assert ab[0] == a[0];
      assert ab[1..] == a[1..] + b;
      HexOfConcat(a[1..], b);
      calc {
        BufferToHex(ab);
        ByteToHex(a[0]) + BufferToHex(a[1..] + b);
        ByteToHex(a[0]) + (BufferToHex(a[1..]) + BufferToHex(b));
        (ByteToHex(a[0]) + BufferToHex(a[1..])) + BufferToHex(b);
      }
    }
  }

  /** Every character of the encoding is a lowercase hex digit, and a byte below 16 starts with '0'. */
  lemma HexAlphabetOnly(bytes: seq<byte>)
    ensures forall k :: 0 <= k < |BufferToHex(bytes)| ==> IsHexDigit(BufferToHex(bytes)[k])
    ensures forall i :: 0 <= i < |bytes| && bytes[i] < 16 ==> BufferToHex(bytes)[2 * i] == '0'
  {
    var r := BufferToHex(bytes);
    forall k | 0 <= k < |r|
      ensures IsHexDigit(r[k])
    {
      var i := k / 2;
      HexLayout(bytes, i);
      assert k == 2 * i || k == 2 * i + 1;
    }
    forall i | 0 <= i < |bytes| && bytes[i] < 16
      ensures r[2 * i] == '0'
    {
      HexLayout(bytes, i);
      assert bytes[i] / 16 == 0;
    }
  }

  /**
    `deriveKey`: PBKDF2 of `password` and `salt` for `keyLength * 8` bits,
    as lowercase hex. It fails exactly when the derivation throws, and the
    text decodes back to the derived bits.
   */
  function DeriveKey(pbkdf2: Pbkdf2, password: string, salt: string,
                     iterations: nat := 100000, hash: string := "SHA-256", keyLength: nat := 32): (r: Option<string>)
    ensures r.Some? <==> pbkdf2(password, salt, iterations, hash, keyLength * 8).Some?
    ensures r.Some? ==> HexToBuffer(r.value) == pbkdf2(password, salt, iterations, hash, keyLength * 8)
  {
    match pbkdf2(password, salt, iterations, hash, keyLength * 8)
    case None => None
    case Some(bits) => HexRoundTrip(bits); Some(BufferToHex(bits))
  }

  /** Whether the derivation returns whole bytes for the requested bit length, as WebCrypto does. */
  predicate FullLength(pbkdf2: Pbkdf2, password: string, salt: string, iterations: nat, hash: string, bits: nat)
  {
    pbkdf2(password, salt, iterations, hash, bits).Some? ==> 8 * |pbkdf2(password, salt, iterations, hash, bits).value| == bits
  }

  /** With the default 32-byte key length the derived key is 64 hex characters. */
  lemma DefaultKeyIs64Hex(pbkdf2: Pbkdf2, password: string, salt: string, iterations: nat)
    requires FullLength(pbkdf2, password, salt, iterations, "SHA-256", 256)
    ensures var k := DeriveKey(pbkdf2, password, salt, iterations);
            k.Some? ==> |k.value| == 64 && forall c :: c in k.value ==> IsHexDigit(c)
  {
    var bits := pbkdf2(password, salt, iterations, "SHA-256", 256);
    if bits.Some? {
      HexAlphabetOnly(bits.value);
    }
  }

  const VaultKeyIterations := 1000000
  const MasterTokenIterations := 100000

  /** `generateVaultKey`: the username salts a million SHA-256 iterations over the master password. */
  function GenerateVaultKey(pbkdf2: Pbkdf2, username: string, masterPassword: string): (r: Option<string>)
    ensures r.Some? <==> pbkdf2(masterPassword, username, VaultKeyIterations, "SHA-256", 256).Some?
    ensures r.Some? ==> HexToBuffer(r.value) == pbkdf2(masterPassword, username, VaultKeyIterations, "SHA-256", 256)
  {
    DeriveKey(pbkdf2, masterPassword, username, 1000000)
  }

  /** `generateMasterToken`: the vault key's hex text salts the default 100000 iterations over the master password. */
  function GenerateMasterToken(pbkdf2: Pbkdf2, vaultKey: string, masterPassword: string): (r: Option<string>)
    ensures r.Some? <==> pbkdf2(masterPassword, vaultKey, MasterTokenIterations, "SHA-256", 256).Some?
    ensures r.Some? ==> HexToBuffer(r.value) == pbkdf2(masterPassword, vaultKey, MasterTokenIterations, "SHA-256", 256)
  {
    DeriveKey(pbkdf2, masterPassword, vaultKey)
  }

  /** The chain both submit handlers run: vault key from `(username, password)`, then the master token from it. */
  function DeriveMasterToken(pbkdf2: Pbkdf2, username: string, masterPassword: string): (r: Option<string>)
    ensures r.Some? <==>
              && pbkdf2(masterPassword, username, VaultKeyIterations, "SHA-256", 256).Some?
              && var salt := BufferToHex(pbkdf2(masterPassword, username, VaultKeyIterations, "SHA-256", 256).value);
                 pbkdf2(masterPassword, salt, MasterTokenIterations, "SHA-256", 256).Some?
    ensures r.Some? ==> GenerateVaultKey(pbkdf2, username, masterPassword).Some?
    ensures r.Some? ==>
              var salt := BufferToHex(pbkdf2(masterPassword, username, VaultKeyIterations, "SHA-256", 256).value);
              HexToBuffer(r.value) == pbkdf2(masterPassword, salt, MasterTokenIterations, "SHA-256", 256)
  {
    match GenerateVaultKey(pbkdf2, username, masterPassword)
    case None => None
    case Some(vaultKey) =>
      DecodeThenEncode(vaultKey, pbkdf2(masterPassword, username, VaultKeyIterations, "SHA-256", 256).value);
      GenerateMasterToken(pbkdf2, vaultKey, masterPassword)
  }
}

=== FILE: end_to_end.dfy ===
/**
  The client and the server together: what the signup and login pages send
  is what the register and login routes accept, so an account created
  through the signup page can be opened through the login page.
 */
module EndToEnd {

  import opened Values
  import opened Store
  import opened Routers
  import opened ClientHooks
  import Crypto
  import Validators
  import AuthController

  /** The JSON body the client's API layer posts for a set of credentials. */
  function CredentialsBody(c: Credentials): map<string, Json>
  {
    map["username" := JStr(c.username), "masterToken" := JStr(c.masterToken)]
  }

  /** Credentials posted as JSON pass the register and login validation exactly when the username is well formed. */
  lemma PostedCredentialsValidate(c: Credentials)
    ensures Validators.RegisterValidation(CredentialsBody(c)) == [] <==> Validators.IsUsername(c.username)
    ensures Field(CredentialsBody(c), "username") == Some(JStr(c.username))
    ensures Field(CredentialsBody(c), "masterToken") == Some(JStr(c.masterToken))
  {
  }

  /**
    Signing up with a well-formed fresh username and a password of at least
    8 characters, then logging in with the same username and password,
    registers the account (201) and opens a session lasting the default
    interval, after which the login page navigates to the dashboard.
   */
  lemma {:induction false} SignupThenLogin(pbkdf2: Crypto.Pbkdf2, s: State, env: Env, username: string, password: string,
                                           later: int)
    requires Valid(s) && username !in s.vaults && Validators.IsUsername(username)
    requires |password| >= MinPasswordLength && Crypto.DeriveMasterToken(pbkdf2, username, password).Some?
    requires env.handlerIo == Postgres.Reliable
    ensures var signup := HandleSignup(pbkdf2, SignupForm(username, password, password)).request;
            var login := HandleLogin(pbkdf2, LoginForm(username, password)).request;
            && signup.Some? && login.Some?
            && var registered := PostRegister(s, Request(None, CredentialsBody(signup.value)), env);
               var session := PostLogin(registered.store, Request(None, CredentialsBody(login.value)), env.(now := later));
               && registered.reply.status == 201
               && AuthController.IsLoggedIn(session.reply, env.secret, JStr(username), env.schema.defaultSettings.autoLockTimeInterval, later)
               && LoginNavigates(Some(JObj(session.reply.body)))
  {
    var c := HandleSignup(pbkdf2, SignupForm(username, password, password)).request.value;
    SignupAndLoginAgree(pbkdf2, username, password);
    PostedCredentialsValidate(c);
    var body := CredentialsBody(c);
    assert ToText(Field(body, "username")) == username;
    assert ToText(Field(body, "masterToken")) == c.masterToken;
    var h := AuthController.Register(s, JStr(username), c.masterToken, env.schema, env.secret, env.now, Postgres.Reliable);
    assert PostRegister(s, Request(None, body), env) == FinishHandled(h);
    AuthController.RegisterThenLogin(s, JStr(username), c.masterToken, env.schema, env.secret, env.now, later);
    var l := AuthController.Login(h.store, JStr(username), c.masterToken, env.secret, later, Postgres.Reliable);
    assert PostLogin(h.store, Request(None, body), env.(now := later)) == FinishHandled(l);
    LoginSuccessNavigates(l.returned.value, env.secret, JStr(username), env.schema.defaultSettings.autoLockTimeInterval, later);
  }

  /**
    Whatever the login route answers, the login page navigates to the
    dashboard exactly when the answer is the 200 success: every error body
    the route can send lacks a `message`.
   */
  lemma LoginNavigatesExactlyOnSuccess(s: State, req: Request, env: Env)
    ensures var r := PostLogin(s, req, env).reply;
            LoginNavigates(Some(JObj(r.body))) <==> r.status == 200
  {
    if Validators.LoginValidation(req.body) == [] {
      var h := AuthController.Login(s, Field(req.body, "username").value, ToText(Field(req.body, "masterToken")),
                                    env.secret, env.now, env.handlerIo);
      if h.returned.Some? && AuthController.Matches(s, ParamText(Field(req.body, "username").value), ToText(Field(req.body, "masterToken"))) {
        assert h.returned.value.body == map["message" := JStr("Login successful!")];
      }
    }
  }

  /**
    Whatever the register route answers, the signup page stores no token:
    no reply of the route carries a `jwtToken` in its body.
   */
  lemma SignupNeverStoresToken(s: State, req: Request, env: Env)
    ensures SignupStoredToken(Some(JObj(PostRegister(s, req, env).reply.body))).None?
  {
    if Validators.RegisterValidation(req.body) == [] {
      var u := Field(req.body, "username").value;
      var h := AuthController.Register(s, u, ToText(Field(req.body, "masterToken")), env.schema, env.secret, env.now, env.handlerIo);
      if h.returned.Some? && ParamText(u) !in s.vaults {
        assert h.returned.value.body == map["message" := JStr("Registration successful!")];
      }
    }
  }
}

=== FILE: jwt.dfy ===
/**
  Session credentials: an abstract, symbolic rendering of the JSON Web
  Tokens the server signs with its secret. A token carries its claims and a
  tag; the tag is the symbolic MAC of the claims under a key, so only a
  holder of the server's secret can produce one that verifies. The token's
  wire format and the HMAC itself are not modelled.
 */
module Jwt {

  import opened Values

  type Secret = string

  /**
    The claims the server relies on: the username exactly as the request
    body gave it (a JSON string, or a boolean or number that passed the
    username pattern as text), and the times in seconds.
   */
  datatype Claims = Claims(username: Json, iat: int, exp: int)

  /** Symbolic message authentication code of `signed` under `key`. */
  datatype Tag = Mac(key: Secret, signed: Claims)

  datatype Token = Token(claims: Claims, tag: Tag)

  /** What the browser sends back in the `jwtToken` cookie: a token or arbitrary other text. */
  datatype CookieValue = Malformed(text: string) | Signed(token: Token)

  /**
    `jwt.sign({username}, secret, {expiresIn})` at clock `now` (seconds):
    `iat` is the current time and `exp` is `iat + expiresIn`.
   */
  function Sign(secret: Secret, username: Json, expiresIn: int, now: int): (t: Token)
    ensures t.claims.username == username
    ensures t.claims.exp - t.claims.iat == expiresIn
  {
    var c := Claims(username, now, now + expiresIn);
    Token(c, Mac(secret, c))
  }

  /**
    `jwt.verify(token, secret)`: the tag must be the MAC of the claims under
    the server's secret, and the current time must be before `exp`
    (section 4.1.4 of RFC 7519). Anything else throws, modelled as `None`.
   */
  function Verify(secret: Secret, cookie: CookieValue, now: int): (r: Option<Json>)
    ensures r.Some? ==> cookie.Signed? && cookie.token.tag == Mac(secret, cookie.token.claims)
    ensures r.Some? ==> now < cookie.token.claims.exp && r.value == cookie.token.claims.username
  {
    match cookie
    case Malformed(_) => None
    case Signed(t) => if t.tag == Mac(secret, t.claims) && now < t.claims.exp then Some(t.claims.username) else None
  }

  /** A token the server signed verifies, with its username, exactly until its lifetime has elapsed. */
  lemma SignThenVerify(secret: Secret, username: Json, expiresIn: int, issuedAt: int, now: int)
    ensures Verify(secret, Signed(Sign(secret, username, expiresIn, issuedAt)), now)
            == (if now < issuedAt + expiresIn then Some(username) else None)
  {
  }

  /** Once a token has expired it never verifies again. */
  lemma ExpiryIsFinal(secret: Secret, cookie: CookieValue, expiredAt: int, later: int)
    requires cookie.Signed? && expiredAt >= cookie.token.claims.exp
    requires later >= expiredAt
    ensures Verify(secret, cookie, later).None?
  {
  }

  /** A token signed under a different key never verifies. */
  lemma ForeignKeyRejected(secret: Secret, other: Secret, username: Json, expiresIn: int, issuedAt: int, now: int)
    requires other != secret
    ensures Verify(secret, Signed(Sign(other, username, expiresIn, issuedAt)), now).None?
  {
  }
}

=== FILE: postgres.dfy ===
/**
  The database access layer (server/src/db/postgres.ts): `queryClient`'s
  parameter dispatch and the all-or-nothing `transaction` combinator.

  The combinator is generic in the store it protects. Whether each I/O
  step succeeds (acquiring a pooled client, BEGIN, a query of the
  operations, COMMIT, ROLLBACK) is a parameter, `Io`; the pool itself, SQL
  text and connection retry are not modelled.
 */
module Postgres {

  import opened Values

  /**
    What can be thrown inside a transaction. `RowMissing` is the TypeError
    of reading `rows[0]` of an empty result; `OutOfRange` is the database's
    "integer out of range" for a parameter its column cannot hold.
   */
  datatype Thrown = ConnectFailed | BeginFailed | QueryFailed(index: nat) | CommitFailed | RollbackFailed | RowMissing
                  | OutOfRange

  /** Which I/O steps of one transaction fail; `failingQuery` numbers the queries of the operations from 0. */
  datatype Io = Io(connectFails: bool, beginFails: bool, failingQuery: Option<nat>, commitFails: bool, rollbackFails: bool)

  const Reliable := Io(false, false, None, false, false)

  /** Whether the query with this index (in the operations' own order) throws. */
  predicate QueryFails(io: Io, index: nat)
  {
    io.failingQuery == Some(index)
  }

  /** A call on the pooled client: with a parameter array, or with the query text alone. */
  datatype ClientCall = WithParams(text: string, params: seq<Json>) | TextOnly(text: string)

  /** `queryClient`: parameters are passed exactly when `params` is not null (an empty array still counts). */
  function QueryClient(query: string, params: Option<seq<Json>> := None): (c: ClientCall)
    ensures c.WithParams? <==> params.Some?
    ensures c.text == query
    ensures c.WithParams? ==> c.params == params.value
  {
    match params
    case Some(p) => WithParams(query, p)
    case None => TextOnly(query)
  }

  /** What `operations` did: returned a value with the store its writes produced, or threw. */
  datatype OpsResult<S, R> = Returned(value: R, writes: S) | Threw(error: Thrown)

  /** Client-level events of one transaction, in order. */
  datatype TxEvent = Acquire | Sent(call: ClientCall) | Release

  const BeginCall := QueryClient("BEGIN")
  const CommitCall := QueryClient("COMMIT")
  const RollbackCall := TextOnly("ROLLBACK")

  /**
    What `transaction` did: the value `operations` returned (its side
    effects, such as a sent response, are observable even when COMMIT then
    fails), the error it rethrew, the store as committed, and the events
    on the client.
   */
  datatype TxResult<S, R> = TxResult(returned: Option<R>, error: Option<Thrown>, store: S, log: seq<TxEvent>)

  /** The catch block: ROLLBACK, then release and rethrow; a failing ROLLBACK throws past the release. */
  function Abort<S, R>(s: S, io: Io, returned: Option<R>, err: Thrown, sofar: seq<TxEvent>): TxResult<S, R>
  {
    if io.rollbackFails then TxResult(returned, Some(RollbackFailed), s, sofar + [Sent(RollbackCall)])
    else TxResult(returned, Some(err), s, sofar + [Sent(RollbackCall), Release])
  }

  /**
    `transaction(operations)`: acquire a client, BEGIN, run the operations,
    COMMIT and release. If the operations complete (including an early
    `return`), all their writes are committed; if anything throws, the
    store is left as it was and the error is rethrown.
   */
  function Transaction<S, R>(s: S, io: Io, operations: S -> OpsResult<S, R>): (t: TxResult<S, R>)
    ensures t.error.None? ==> t.returned.Some? && operations(s) == Returned(t.returned.value, t.store)
    ensures t.error.Some? ==> t.store == s
    ensures t.returned.Some? ==> operations(s).Returned? && t.returned.value == operations(s).value
    ensures t.error.None? <==> !io.connectFails && !io.beginFails && operations(s).Returned? && !io.commitFails
    ensures operations(s).Threw? && !io.connectFails && !io.beginFails && !io.rollbackFails
            ==> t.error == Some(operations(s).error)
    ensures Sent(CommitCall) in t.log <==> !io.connectFails && !io.beginFails && operations(s).Returned?
    ensures Release in t.log <==> !io.connectFails && (t.error.None? || !io.rollbackFails)
  {
    if io.connectFails then TxResult(None, Some(ConnectFailed), s, [])
    else if io.beginFails then Abort(s, io, None, BeginFailed, [Acquire, Sent(BeginCall)])
    else
      match operations(s)
      case Threw(e) => Abort(s, io, None, e, [Acquire, Sent(BeginCall)])
      case Returned(v, w) =>
        var sofar := [Acquire, Sent(BeginCall), Sent(CommitCall)];
        if io.commitFails then Abort(s, io, Some(v), CommitFailed, sofar)
        else TxResult(Some(v), None, w, sofar + [Release])
  }

  /** On reliable I/O a transaction commits exactly the writes of operations that complete. */
  lemma ReliableTransaction<S, R>(s: S, operations: S -> OpsResult<S, R>)
    ensures var t := Transaction(s, Reliable, operations);
            && (operations(s).Returned? ==> t == TxResult(Some(operations(s).value), None, operations(s).writes,
                                                           [Acquire, Sent(BeginCall), Sent(CommitCall), Release]))
            && (operations(s).Threw? ==> t == TxResult(None, Some(operations(s).error), s,
                                                        [Acquire, Sent(BeginCall), Sent(RollbackCall), Release]))
  {
  }
}

=== FILE: response_templates.dfy ===
/**
  The three response shapes every handler and middleware sends
  (server/src/utils/responseTemplates.ts), plus the session cookie a
  handler may attach before sending.
 */
module ResponseTemplates {

  import opened Values
  import Jwt

  /** An HTTP response: status code, JSON body, and the `jwtToken` cookie if one was set. */
  datatype Response = Response(status: int, body: map<string, Json>, sessionCookie: Option<Jwt.Token>)

  /** Body key lookup, `undefined` when absent. */
  function BodyField(r: Response, key: string): Option<Json>
  {
    Field(r.body, key)
  }

  /**
    `sendClientSideError`: status `statusCode` (default 400) and body
    `{error: errMsg}` (default "Invalid Request").
   */
  function SendClientSideError(errMsg: string := "Invalid Request", statusCode: int := 400): (r: Response)
    ensures r.body.Keys == {"error"} && r.body["error"] == JStr(errMsg)
    ensures r.status == statusCode && r.sessionCookie.None?
  {
    Response(statusCode, map["error" := JStr(errMsg)], None)
  }

  /**
    `sendServerSideError`: status `statusCode` (default 500) and the fixed
    body `{error: "Server Side Error"}`; the error object is never inspected.
   */
  function SendServerSideError<E>(err: E, statusCode: int := 500): (r: Response)
    ensures r.body == map["error" := JStr("Server Side Error")]
    ensures r.status == statusCode && r.sessionCookie.None?
  {
    Response(statusCode, map["error" := JStr("Server Side Error")], None)
  }

  /**
    `sendSuccessResponse`: status `statusCode` (default 200) and body
    `{message, ...additionals}`. Because the spread comes last, a `message`
    key in `additionals` replaces the message.
   */
  function SendSuccessResponse(message: string := "Request Successful", statusCode: int := 200,
                               additionals: map<string, Json> := map[]): (r: Response)
    ensures r.body.Keys == {"message"} + additionals.Keys
    ensures forall k :: k in additionals ==> r.body[k] == additionals[k]
    ensures "message" !in additionals ==> r.body["message"] == JStr(message)
    ensures r.status == statusCode && r.sessionCookie.None?
  {
    Response(statusCode, map["message" := JStr(message)] + additionals, None)
  }

  /** `response.cookie("jwtToken", token, ...)` before the response is sent. */
  function WithSessionCookie(r: Response, token: Jwt.Token): Response
  {
    r.(sessionCookie := Some(token))
  }

  /** The server-side error response is the same whatever error caused it, so no internals leak. */
  lemma ServerErrorHidesCause<E>(e1: E, e2: E, statusCode: int)
    ensures SendServerSideError(e1, statusCode) == SendServerSideError(e2, statusCode)
  {
  }

  /** Client-side and server-side errors carry an `error` key and never a `message` key. */
  lemma ErrorBodiesHaveNoMessage<E>(msg: string, err: E, status: int)
    ensures "message" !in SendClientSideError(msg, status).body
    ensures "message" !in SendServerSideError(err, status).body
    ensures Truthy(BodyField(SendServerSideError(err, status), "error"))
  {
  }
}

=== FILE: routers.dfy ===
/**
  The middleware chains of the three routers (the files under server/src/routers)
  taken as entry points: what runs in which order, and which username the
  handlers act on. Stages the routers import but no source file exports
  (`authHandler`, `updateVaultValidation`, `changeMasterPasswordValidation`,
  `changeMasterPasswordHandler`) are parameters.

  An error a stage passes to `next(err)` ends at an error handler that
  answers with `sendServerSideError`; once a response has been sent, that
  later answer is lost.
 */
module Routers {

  import opened Values
  import opened Postgres
  import opened ResponseTemplates
  import opened Store
  import opened Validators
  import opened AuthGate
  import Jwt
  import AuthController
  import VaultsController
  import SettingsController

  datatype Request = Request(cookie: Option<Jwt.CookieValue>, body: map<string, Json>)

  /** The environment of one request: schema defaults, the signing secret, the clock, and the I/O of the gate's and the handler's transactions. */
  datatype Env = Env(schema: Schema, secret: Jwt.Secret, now: int, gateIo: Io, handlerIo: Io)

  /** The response the client receives and the store afterwards. */
  datatype Served = Served(reply: Response, store: State)

  /** An opaque handler stage, given the store, the principal and the body. */
  type Stage = (State, string, map<string, Json>) -> Served

  /** An opaque validation stage ending in `validateErrors`. */
  type Check = map<string, Json> -> Verdict

  /** The client sees what was sent first; a stage that only forwarded an error gets the server-side error. */
  function Finish(sent: Option<Response>, forwarded: Option<Thrown>, store: State): Served
  {
    if sent.Some? then Served(sent.value, store) else Served(SendServerSideError(forwarded), store)
  }

  function FinishHandled(h: Handled): Served
  {
    Finish(h.returned, h.error, h.store)
  }

  /**
    The gate, then `next` with the bound principal, or the gate's own
    outcome. Once `next` has run, an error the gate forwards afterwards (a
    failed COMMIT of its lookup) is not reflected: the handler's response
    stands, as in the sequential reading of the source.
   */
  function Gated(s: State, req: Request, env: Env, next: string -> Served): Served
  {
    var g := CheckAuth(s, req.cookie, env.secret, env.now, env.gateIo);
    if g.principal.Some? then next(g.principal.value) else Finish(g.sent, g.forwarded, g.store)
  }

  /** The principal the gate binds for this request, if it admits it. */
  function Principal(s: State, req: Request, env: Env): Option<string>
  {
    CheckAuth(s, req.cookie, env.secret, env.now, env.gateIo).principal
  }

  /** The outcome of a request the gate does not admit: its reply, and the store unchanged. */
  function GateOutcome(s: State, req: Request, env: Env): Served
  {
    var g := CheckAuth(s, req.cookie, env.secret, env.now, env.gateIo);
    Finish(g.sent, g.forwarded, s)
  }

  /**
    `POST /register`: `registerValidation`, then `registerHandler` on the
    body's `username` value as it is (validation has made it a boolean,
    number or string) and its string `masterToken`; no auth gate.
   */
  function PostRegister(s: State, req: Request, env: Env): (r: Served)
    ensures RegisterValidation(req.body) != [] ==>
              r == Served(SendClientSideError(RegisterValidation(req.body)[0]), s)
    ensures RegisterValidation(req.body) == [] ==>
              && Field(req.body, "username").Some? && IsScalar(Field(req.body, "username").value)
              && r == FinishHandled(AuthController.Register(s, Field(req.body, "username").value,
                                      ToText(Field(req.body, "masterToken")), env.schema, env.secret, env.now, env.handlerIo))
  {
    match ValidateErrors(RegisterValidation(req.body))
    case Reject(response) => Served(response, s)
    case Proceed =>
      FinishHandled(AuthController.Register(s, Field(req.body, "username").value, ToText(Field(req.body, "masterToken")),
                                            env.schema, env.secret, env.now, env.handlerIo))
  }

  /** `POST /login`: `loginValidation`, then `loginHandler` on the body's values; no auth gate. */
  function PostLogin(s: State, req: Request, env: Env): (r: Served)
    ensures r.store == s
    ensures LoginValidation(req.body) != [] ==>
              r == Served(SendClientSideError(LoginValidation(req.body)[0]), s)
    ensures LoginValidation(req.body) == [] ==>
              && Field(req.body, "username").Some? && IsScalar(Field(req.body, "username").value)
              && r == FinishHandled(AuthController.Login(s, Field(req.body, "username").value,
                                      ToText(Field(req.body, "masterToken")), env.secret, env.now, env.handlerIo))
  {
    match ValidateErrors(LoginValidation(req.body))
    case Reject(response) => Served(response, s)
    case Proceed =>
      FinishHandled(AuthController.Login(s, Field(req.body, "username").value, ToText(Field(req.body, "masterToken")),
                                         env.secret, env.now, env.handlerIo))
  }

  /** `GET /auth/`: `checkAuth`, then the opaque `authHandler`. */
  function GetAuth(s: State, req: Request, env: Env, authHandler: Stage): (r: Served)
    ensures Principal(s, req, env).None? ==> r == GateOutcome(s, req, env)
    ensures Principal(s, req, env).Some? ==> r == authHandler(s, Principal(s, req, env).value, req.body)
  {
    Gated(s, req, env, (u: string) => authHandler(s, u, req.body))
  }

  /** `GET /vaults/`: `checkAuth`, then `getVaultHandler` on the gate's principal. */
  function GetVaultRoute(s: State, req: Request, env: Env): (r: Served)
    ensures Principal(s, req, env).None? ==> r == GateOutcome(s, req, env)
    ensures Principal(s, req, env).Some? ==>
              r == FinishHandled(VaultsController.GetVault(s, Principal(s, req, env).value, env.handlerIo))
    ensures r.store == s
  {
    Gated(s, req, env, (u: string) => FinishHandled(VaultsController.GetVault(s, u, env.handlerIo)))
  }

  /**
    `PUT /vaults/`: `checkAuth`, then the opaque `updateVaultValidation`,
    then `updateVaultHandler` on the gate's principal with `body.vault`.
    An auth failure takes precedence over a validation failure.
   */
  function PutVaultRoute(s: State, req: Request, env: Env, validate: Check): (r: Served)
    ensures Principal(s, req, env).None? ==> r == GateOutcome(s, req, env)
    ensures Principal(s, req, env).Some? && validate(req.body).Reject? ==> r == Served(validate(req.body).response, s)
    ensures Principal(s, req, env).Some? && validate(req.body).Proceed? ==>
              r == FinishHandled(VaultsController.UpdateVault(s, Principal(s, req, env).value,
                                   VaultsController.VaultParam(Field(req.body, "vault")), env.handlerIo))
  {
    Gated(s, req, env, (u: string) =>
      match validate(req.body)
      case Reject(response) => Served(response, s)
      case Proceed => FinishHandled(VaultsController.UpdateVault(s, u, VaultsController.VaultParam(Field(req.body, "vault")), env.handlerIo)))
  }

  /** `DELETE /vaults/`: `checkAuth`, then `deleteVaultHandler` on the gate's principal. */
  function DeleteVaultRoute(s: State, req: Request, env: Env): (r: Served)
    ensures Principal(s, req, env).None? ==> r == GateOutcome(s, req, env)
    ensures Principal(s, req, env).Some? ==>
              r == FinishHandled(VaultsController.DeleteVault(s, Principal(s, req, env).value, env.handlerIo))
  {
    Gated(s, req, env, (u: string) => FinishHandled(VaultsController.DeleteVault(s, u, env.handlerIo)))
  }

  /** `PUT /vaults/changeMasterPassword`: `checkAuth`, then two opaque stages. */
  function ChangeMasterPasswordRoute(s: State, req: Request, env: Env, validate: Check, handler: Stage): (r: Served)
    ensures Principal(s, req, env).None? ==> r == GateOutcome(s, req, env)
    ensures Principal(s, req, env).Some? && validate(req.body).Proceed? ==>
              r == handler(s, Principal(s, req, env).value, req.body)
    ensures Principal(s, req, env).Some? && validate(req.body).Reject? ==> r == Served(validate(req.body).response, s)
  {
    Gated(s, req, env, (u: string) =>
      match validate(req.body)
      case Reject(response) => Served(response, s)
      case Proceed => handler(s, u, req.body))
  }

  /** `GET /settings/`: `checkAuth`, then `getSettingsHandler` on the gate's principal. */
  function GetSettingsRoute(s: State, req: Request, env: Env): (r: Served)
    ensures Principal(s, req, env).None? ==> r == GateOutcome(s, req, env)
    ensures Principal(s, req, env).Some? ==>
              r == FinishHandled(SettingsController.GetSettings(s, Principal(s, req, env).value, env.handlerIo))
    ensures r.store == s
  {
    Gated(s, req, env, (u: string) => FinishHandled(SettingsController.GetSettings(s, u, env.handlerIo)))
  }

  /** `PUT /settings/`: `checkAuth`, then `updateSettingsValidation`, then `updateSettingsHandler`. */
  function PutSettingsRoute(s: State, req: Request, env: Env): (r: Served)
    ensures Principal(s, req, env).None? ==> r == GateOutcome(s, req, env)
    ensures Principal(s, req, env).Some? && UpdateSettingsValidation(req.body) != [] ==>
              r == Served(SendClientSideError(UpdateSettingsValidation(req.body)[0]), s)
    ensures Principal(s, req, env).Some? && UpdateSettingsValidation(req.body) == [] ==>
              && SettingsController.SettingsFromBody(req.body).Some?
              && r == FinishHandled(SettingsController.UpdateSettings(s, Principal(s, req, env).value,
                                      SettingsController.SettingsFromBody(req.body).value, env.schema, env.handlerIo))
  {
    Gated(s, req, env, (u: string) =>
      match ValidateErrors(UpdateSettingsValidation(req.body))
      case Reject(response) => Served(response, s)
      case Proceed =>
        var row := SettingsController.SettingsFromBody(req.body).value;
        FinishHandled(SettingsController.UpdateSettings(s, u, row, env.schema, env.handlerIo)))
  }

  /** A request the gate does not admit never changes the store and gets a 401 or a server-side error. */
  lemma RefusedRequestsChangeNothing(s: State, req: Request, env: Env)
    requires Principal(s, req, env).None?
    ensures GateOutcome(s, req, env).store == s
    ensures GateOutcome(s, req, env).reply.status in {401, 500}
  {
  }

  /** An unauthenticated settings update with invalid settings gets the gate's 401, not the validator's 400. */
  lemma AuthBeforeSettingsValidation(s: State, req: Request, env: Env)
    requires req.cookie.None?
    ensures PutSettingsRoute(s, req, env) == Served(SendClientSideError(NoCookie, 401), s)
  {
  }

  /** Vault reads and deletes act on the session's username; a `username` in the body changes nothing. */
  lemma VaultRoutesIgnoreBodyUsername(s: State, req: Request, env: Env, claimed: Json)
    ensures var forged := req.(body := req.body["username" := claimed]);
            && GetVaultRoute(s, forged, env) == GetVaultRoute(s, req, env)
            && DeleteVaultRoute(s, forged, env) == DeleteVaultRoute(s, req, env)
            && GetSettingsRoute(s, forged, env) == GetSettingsRoute(s, req, env)
  {
  }

  /** Invalid credentials never reach the register or login handlers: the store is untouched. */
  lemma InvalidCredentialsStopAtValidation(s: State, req: Request, env: Env)
    requires Field(req.body, "username").None?
    ensures PostRegister(s, req, env) == Served(SendClientSideError(UsernameRequired, 400), s)
    ensures PostLogin(s, req, env) == Served(SendClientSideError(UsernameRequired, 400), s)
  {
  }

  /** After an account is deleted, a session issued for it no longer opens its vault. */
  lemma SessionDiesWithAccount(s: State, username: string, env: Env, issuedAt: int, lifetime: int)
    requires username in s.vaults && env.gateIo == Reliable && env.handlerIo == Reliable
    ensures var d := VaultsController.DeleteVault(s, username, Reliable).store;
            var req := Request(Some(Jwt.Signed(Jwt.Sign(env.secret, JStr(username), lifetime, issuedAt))), map[]);
            GetVaultRoute(d, req, env) == Served(SendClientSideError(BadToken, 401), d)
  {
    var d := VaultsController.DeleteVault(s, username, Reliable).store;
    var req := Request(Some(Jwt.Signed(Jwt.Sign(env.secret, JStr(username), lifetime, issuedAt))), map[]);
    var g := CheckAuth(d, req.cookie, env.secret, env.now, Reliable);
    assert username !in d.vaults;
    assert g.sent == Some(SendClientSideError(BadToken, 401)) && g.principal.None?;
    assert GateOutcome(d, req, env) == Served(SendClientSideError(BadToken, 401), d);
  }

  /**
    A boolean or numeric `username` whose text matches the pattern ("true",
    12345) registers with 201 and a session, yet that session never passes
    the gate: the token claims the boolean or number, the stored username
    is its text, and `!==` refuses the pair.
   */
  lemma NonStringUsernameSessionDead(s: State, env: Env, username: Json, masterToken: string, later: Env, body: map<string, Json>)
    requires username.JBool? || username.JNum?
    requires Validators.IsUsername(ToText(Some(username))) && ParamText(username) !in s.vaults
    requires env.handlerIo == Reliable
    ensures var registered := PostRegister(s, Request(None, map["username" := username, "masterToken" := JStr(masterToken)]), env);
            && registered.reply.status == 201
            && registered.reply.sessionCookie.Some?
            && ParamText(username) in registered.store.vaults
            && Principal(registered.store, Request(Some(Jwt.Signed(registered.reply.sessionCookie.value)), body), later).None?
  {
    var b := map["username" := username, "masterToken" := JStr(masterToken)];
    assert Field(b, "username") == Some(username) && Field(b, "masterToken") == Some(JStr(masterToken));
    var h := AuthController.Register(s, username, masterToken, env.schema, env.secret, env.now, Reliable);
    assert PostRegister(s, Request(None, b), env) == FinishHandled(h);
  }

  /**
    A session issued at registration opens the new vault: after a fresh,
    well-formed string username registers, a vault request carrying the
    issued cookie, made before the default interval has elapsed, gets 200
    with the column default as the vault.
   */
  lemma RegisteredSessionOpensVault(s: State, env: Env, username: string, masterToken: string,
                                    later: Env, body: map<string, Json>)
    requires IsUsername(username) && username !in s.vaults
    requires env.handlerIo == Reliable && later.gateIo == Reliable && later.handlerIo == Reliable
    requires later.secret == env.secret && later.now < env.now + env.schema.defaultSettings.autoLockTimeInterval
    ensures var registered := PostRegister(s, Request(None, map["username" := JStr(username), "masterToken" := JStr(masterToken)]), env);
            && registered.reply.status == 201 && registered.reply.sessionCookie.Some?
            && var fetched := GetVaultRoute(registered.store, Request(Some(Jwt.Signed(registered.reply.sessionCookie.value)), body), later);
               && fetched.reply.status == 200 && BodyField(fetched.reply, "vault") == Some(env.schema.defaultVault)
               && fetched.store == registered.store
  {
    var b := map["username" := JStr(username), "masterToken" := JStr(masterToken)];
    assert Field(b, "username") == Some(JStr(username)) && Field(b, "masterToken") == Some(JStr(masterToken));
    var h := AuthController.Register(s, JStr(username), masterToken, env.schema, env.secret, env.now, Reliable);
    assert PostRegister(s, Request(None, b), env) == FinishHandled(h);
    var cookie := Jwt.Sign(env.secret, JStr(username), env.schema.defaultSettings.autoLockTimeInterval, env.now);
    Jwt.SignThenVerify(env.secret, JStr(username), env.schema.defaultSettings.autoLockTimeInterval, env.now, later.now);
    assert Principal(h.store, Request(Some(Jwt.Signed(cookie)), body), later) == Some(username);
  }

  /**
    A session issued at login opens the account's vault: after a login with
    matching credentials, a vault request carrying the issued cookie, made
    before the account's stored interval has elapsed, gets 200 with the
    stored vault.
   */
  lemma LoggedInSessionOpensVault(s: State, env: Env, username: string, masterToken: string,
                                  later: Env, body: map<string, Json>)
    requires Valid(s) && IsUsername(username) && AuthController.Matches(s, username, masterToken)
    requires env.handlerIo == Reliable && later.gateIo == Reliable && later.handlerIo == Reliable
    requires later.secret == env.secret && later.now < env.now + SettingsOf(s, username).value.autoLockTimeInterval
    ensures var session := PostLogin(s, Request(None, map["username" := JStr(username), "masterToken" := JStr(masterToken)]), env);
            && session.reply.status == 200 && session.reply.sessionCookie.Some?
            && var fetched := GetVaultRoute(s, Request(Some(Jwt.Signed(session.reply.sessionCookie.value)), body), later);
               && fetched.reply.status == 200 && BodyField(fetched.reply, "vault") == Some(s.vaults[username].vault)
  {
    var b := map["username" := JStr(username), "masterToken" := JStr(masterToken)];
    assert Field(b, "username") == Some(JStr(username)) && Field(b, "masterToken") == Some(JStr(masterToken));
    var h := AuthController.Login(s, JStr(username), masterToken, env.secret, env.now, Reliable);
    assert PostLogin(s, Request(None, b), env) == FinishHandled(h);
    var lifetime := SettingsOf(s, username).value.autoLockTimeInterval;
    var cookie := Jwt.Sign(env.secret, JStr(username), lifetime, env.now);
    Jwt.SignThenVerify(env.secret, JStr(username), lifetime, env.now, later.now);
    assert Principal(s, Request(Some(Jwt.Signed(cookie)), body), later) == Some(username);
  }

  /**
    A settings update from an admitted session whose body holds a JSON
    number `n >= 0` and a JSON boolean `b`: below 10^21 and within the
    interval column it is stored as exactly `(n, b)` with 200; below 10^21
    but beyond the column the UPDATE throws, so the client gets the
    server-side error and nothing changes; from 10^21 on validation
    answers 400.
   */
  lemma TypedSettingsUpdate(s: State, req: Request, env: Env, n: int, b: bool)
    requires Valid(s) && Principal(s, req, env).Some? && env.handlerIo == Reliable && n >= 0
    requires req.body == map["settings" := JObj(map["autoLockTimeInterval" := JNum(n), "autoLockOnSiteRefresh" := JBool(b)])]
    ensures var r := PutSettingsRoute(s, req, env);
            && (n < ExponentThreshold && FitsInterval(env.schema, n) ==>
                  && r.reply == SendSuccessResponse("Settings updated successfully!", 200)
                  && SettingsOf(r.store, Principal(s, req, env).value) == Some(SettingsRow(n, b)))
            && (n < ExponentThreshold && !FitsInterval(env.schema, n) ==> r.reply.status == 500 && r.store == s)
            && (n >= ExponentThreshold ==> r.reply.status == 400 && r.store == s)
  {
    var u := Principal(s, req, env).value;
    SettingsController.TypedSettingsBody(n, b);
    SettingsController.ValidIdsAreTruthy(s, u);
  }
}

=== FILE: settings_controller.dfy ===
/**
  Reading and updating the principal's settings
  (server/src/controllers/settings.ts), and how a validated request body
  becomes the settings row the database stores.
 */
module SettingsController {

  import opened Values
  import opened Postgres
  import opened ResponseTemplates
  import opened Store
  import Validators

  function VaultNotFound(username: string): string
  {
    "Vault not found for username:" + username
  }

  function SettingsNotFound(username: string): string
  {
    "Settings not found for username:" + username
  }

  /** The id lookup's guard `!rows.length || !rows[0].id`: an absent account or a falsy (zero) id. */
  predicate NoVaultId(s: State, username: string)
  {
    username !in s.vaults || s.vaults[username].id == 0
  }

  /** The `settings` object of a response: the row's two fields and nothing else. */
  function SettingsJson(row: SettingsRow): map<string, Json>
  {
    map["autoLockTimeInterval" := JNum(row.autoLockTimeInterval),
        "autoLockOnSiteRefresh" := JBool(row.autoLockOnSiteRefresh)]
  }

  function GetSettingsOperations(s: State, username: string, io: Io): OpsResult<State, Response>
  {
    if QueryFails(io, 0) then Threw(QueryFailed(0))
    else if NoVaultId(s, username) then Returned(SendClientSideError(VaultNotFound(username), 404), s)
    else if QueryFails(io, 1) then Threw(QueryFailed(1))
    else if s.vaults[username].id !in s.settings then Returned(SendClientSideError(SettingsNotFound(username), 404), s)
    else
      var row := s.settings[s.vaults[username].id];
      Returned(SendSuccessResponse("Settings fetched successfully!", 200, map["settings" := JObj(SettingsJson(row))]), s)
  }

  /**
    `getSettingsHandler`: 404 "Vault not found for username:<u>" without an
    account, 404 "Settings not found for username:<u>" without a settings
    row, otherwise 200 with exactly the two fields of the row keyed by this
    account's id. The store never changes.
   */
  function GetSettings(s: State, username: string, io: Io): (h: Handled)
    ensures h.store == s
    ensures h.returned.Some? && username !in s.vaults ==>
              h.returned.value == SendClientSideError(VaultNotFound(username), 404)
    ensures h.returned.Some? && Valid(s) && username in s.vaults ==>
              && SettingsOf(s, username).Some?
              && h.returned.value.status == 200
              && BodyField(h.returned.value, "settings") == Some(JObj(SettingsJson(SettingsOf(s, username).value)))
    ensures h.returned.Some? && username in s.vaults && s.vaults[username].id != 0 && SettingsOf(s, username).None? ==>
              h.returned.value == SendClientSideError(SettingsNotFound(username), 404)
    ensures io == Reliable ==> h.returned.Some? && h.error.None?
  {
    Transaction(s, io, (st: State) => GetSettingsOperations(st, username, io))
  }

  function UpdateSettingsOperations(s: State, username: string, row: SettingsRow, schema: Schema, io: Io): OpsResult<State, Response>
  {
    if QueryFails(io, 0) then Threw(QueryFailed(0))
    else if NoVaultId(s, username) then Returned(SendClientSideError(VaultNotFound(username), 404), s)
    else if QueryFails(io, 1) then Threw(QueryFailed(1))
    else if !FitsInterval(schema, row.autoLockTimeInterval) then Threw(OutOfRange)
    else
      var id := s.vaults[username].id;
      var updated := if id in s.settings then s.(settings := s.settings[id := row]) else s;
      Returned(SendSuccessResponse("Settings updated successfully!", 200), updated)
  }

  /**
    `updateSettingsHandler`: 404 and no change without an account;
    otherwise both fields of this account's settings row are overwritten
    and nothing else changes. It answers 200 even when no row matched,
    since the update's row count is never checked. An interval the column
    cannot hold makes the UPDATE throw: nothing is sent and nothing changes.
   */
  function UpdateSettings(s: State, username: string, row: SettingsRow, schema: Schema, io: Io): (h: Handled)
    ensures username !in s.vaults ==> h.store == s
    ensures username !in s.vaults && h.returned.Some? ==>
              h.returned.value == SendClientSideError(VaultNotFound(username), 404)
    ensures h.error.Some? ==> h.store == s
    ensures h.error.None? && !NoVaultId(s, username) ==>
              && h.store.vaults == s.vaults && h.store.nextId == s.nextId
              && h.store.settings.Keys == s.settings.Keys
              && (SettingsOf(s, username).Some? ==> SettingsOf(h.store, username) == Some(row))
              && (forall id :: id in s.settings && id != s.vaults[username].id ==> h.store.settings[id] == s.settings[id])
    ensures h.returned.Some? && !NoVaultId(s, username) ==>
              h.returned.value == SendSuccessResponse("Settings updated successfully!", 200)
    ensures !NoVaultId(s, username) && !FitsInterval(schema, row.autoLockTimeInterval) ==>
              h.returned.None? && h.error.Some? && h.store == s
    ensures io == Reliable && !NoVaultId(s, username) ==>
              (h.error.None? <==> FitsInterval(schema, row.autoLockTimeInterval))
  {
    Transaction(s, io, (st: State) => UpdateSettingsOperations(st, username, row, schema, io))
  }

  /** In a valid store every account's id is non-zero, so the falsy-id guard reduces to "no account". */
  lemma ValidIdsAreTruthy(s: State, username: string)
    requires Valid(s)
    ensures NoVaultId(s, username) <==> username !in s.vaults
  {
  }

  /** Updating the settings and then reading them gives the new values. */
  lemma UpdateThenGetSettings(s: State, username: string, row: SettingsRow, schema: Schema)
    requires Valid(s) && username in s.vaults && FitsInterval(schema, row.autoLockTimeInterval)
    ensures var h := UpdateSettings(s, username, row, schema, Reliable);
            BodyField(GetSettings(h.store, username, Reliable).returned.value, "settings") == Some(JObj(SettingsJson(row)))
  {
    var h := UpdateSettings(s, username, row, schema, Reliable);
    assert h.error.None?;
    assert Valid(h.store);
  }

  /** With an account whose settings row is gone, the update still answers 200 and changes nothing. */
  lemma UpdateWithoutRowSucceeds(s: State, username: string, row: SettingsRow, schema: Schema)
    requires username in s.vaults && s.vaults[username].id != 0 && s.vaults[username].id !in s.settings
    requires FitsInterval(schema, row.autoLockTimeInterval)
    ensures var h := UpdateSettings(s, username, row, schema, Reliable);
            h.returned == Some(SendSuccessResponse("Settings updated successfully!", 200)) && h.store == s
  {
  }

  /** Settings updates keep the store invariant. */
  lemma UpdateSettingsKeepsValid(s: State, username: string, row: SettingsRow, schema: Schema, io: Io)
    requires Valid(s)
    ensures Valid(UpdateSettings(s, username, row, schema, io).store)
  {
  }

  /**
    The row the handler asks the database to store for a request body: the
    interval's text read as an integer and the flag's text read as a
    boolean, as Postgres reads the parameters the handler passes through
    unconverted. Whether the column holds the interval is decided by the
    UPDATE itself (`UpdateSettings`).
   */
  function SettingsFromBody(body: map<string, Json>): (r: Option<SettingsRow>)
    ensures r.Some? <==> Validators.UpdateSettingsValidation(body) == []
  {
    var settings := Field(body, "settings");
    var interval := ParseSignedInt(ToText(Get(settings, "autoLockTimeInterval")));
    var refresh := ToText(Get(settings, "autoLockOnSiteRefresh"));
    if interval.Some? && interval.value >= 0 && Validators.IsBooleanText(refresh) then
      Some(SettingsRow(interval.value, refresh == "true" || refresh == "1"))
    else None
  }

  /**
    A body with a JSON number `n >= 0` and a JSON boolean `b` yields exactly
    the row `(n, b)` when `n < 10^21`, and none from there on.
   */
  lemma TypedSettingsBody(n: int, b: bool)
    requires n >= 0
    ensures SettingsFromBody(map["settings" := JObj(map["autoLockTimeInterval" := JNum(n),
                                                         "autoLockOnSiteRefresh" := JBool(b)])])
            == if n < ExponentThreshold then Some(SettingsRow(n, b)) else None
  {
    IntTextRoundTrip(n);
  }
}

=== FILE: store.dfy ===
/**
  The two tables the handlers read and write, as immutable maps:
  `Vaults` keyed by username (one row per account) and `Settings` keyed by
  the owning vault's id. Ids come from a serial counter starting at 1.
 */
module Store {

  import opened Values
  import opened Postgres
  import opened ResponseTemplates

  datatype SettingsRow = SettingsRow(autoLockTimeInterval: int, autoLockOnSiteRefresh: bool)

  /** A `Vaults` row (its username is the map key): serial id, the stored master token, the opaque vault value. */
  datatype Account = Account(id: nat, masterToken: string, vault: Json)

  datatype State = State(vaults: map<string, Account>, settings: map<nat, SettingsRow>, nextId: nat)

  /**
    Column defaults of the two tables, and the largest value the integer
    column `autoLockTimeInterval` holds (2^31 - 1 for `integer`, 2^63 - 1
    for `bigint`); the schema is not part of this model, so they are
    parameters.
   */
  datatype Schema = Schema(defaultVault: Json, defaultSettings: SettingsRow, intervalMax: int)

  /** Whether the interval column holds `n`: the two's-complement range of a signed integer column. */
  predicate FitsInterval(schema: Schema, n: int)
  {
    -schema.intervalMax - 1 <= n <= schema.intervalMax
  }

  const Empty := State(map[], map[], 1)

  /** What a handler did: the response it sent, the error it passed to `next`, the committed store, the client log. */
  type Handled = TxResult<State, Response>

  /**
    The store invariant the handlers keep: ids are positive, below the
    counter and distinct, every account has its settings row, and settings
    rows are keyed by issued ids.
   */
  ghost predicate Valid(s: State)
  {
    && s.nextId >= 1
    && (forall u :: u in s.vaults ==> 1 <= s.vaults[u].id < s.nextId && s.vaults[u].id in s.settings)
    && (forall u, v :: u in s.vaults && v in s.vaults && u != v ==> s.vaults[u].id != s.vaults[v].id)
    && (forall id :: id in s.settings ==> id < s.nextId)
  }

  lemma EmptyIsValid()
    ensures Valid(Empty)
  {
  }

  /** The settings row of an account, when both exist. */
  function SettingsOf(s: State, username: string): Option<SettingsRow>
  {
    if username in s.vaults && s.vaults[username].id in s.settings then Some(s.settings[s.vaults[username].id])
    else None
  }
}

=== FILE: validators.dfy ===
/**
  Request-body validation rules (the files under server/src/validators) and the
  `validateErrors` middleware that reports them.

  Every rule of a chain runs and each failing rule contributes its message
  in declaration order; `validateErrors` then answers 400 with the first
  message, or lets the request continue. `exists()` fails only for a
  missing field; `matches`, `isInt` and `isBoolean` test the field's text
  form (see `Values.ToText`); `isString` tests the JSON type.
 */
module Validators {

  import opened Values
  import opened ResponseTemplates

  predicate IsWordChar(c: char)
  {
    'a' <= c <= 'z' || 'A' <= c <= 'Z' || '0' <= c <= '9' || c == '_'
  }

  /** The declarative username rule: 4 to 32 characters, each a letter, digit or underscore. */
  predicate IsUsername(s: string)
  {
    4 <= |s| <= 32 && forall i :: 0 <= i < |s| ==> IsWordChar(s[i])
  }

  /**
    The anchored pattern `^[a-zA-Z0-9_]{4,32}$` run as a bounded-repetition
    automaton: from position `i`, having matched `count` repetitions.
   */
  function MatchesUsernamePattern(s: string, i: nat := 0, count: nat := 0): bool
    requires i <= |s|
    decreases |s| - i
  {
    if i == |s| then 4 <= count <= 32
    else IsWordChar(s[i]) && count < 32 && MatchesUsernamePattern(s, i + 1, count + 1)
  }

  lemma {:induction false} PatternFrom(s: string, i: nat, count: nat)
    requires i <= |s|
    ensures MatchesUsernamePattern(s, i, count)
            <==> 4 <= count + (|s| - i) <= 32 && forall j :: i <= j < |s| ==> IsWordChar(s[j])
    decreases |s| - i
  {
    if i < |s| {
      PatternFrom(s, i + 1, count + 1);
    }
  }

  /** The pattern accepts exactly the usernames of the declarative rule. */
  lemma PatternIsUsernameRule(s: string)
    ensures MatchesUsernamePattern(s) <==> IsUsername(s)
  {
    PatternFrom(s, 0, 0);
  }

  const UsernameRequired := "Username is required"
  const UsernameMalformed := "Username must be 4-32 characters long and can only contain letters, numbers, and underscores."
  const MasterTokenRequired := "Master token is required"
  const MasterTokenNotString := "Master token must be a string"
  const SettingsRequired := "Settings object is required"
  const IntervalRequired := "Auto lock time interval is required"
  const IntervalMalformed := "Auto lock time interval must be a non-negative integer"
  const RefreshRequired := "Auto lock on site refresh is required"
  const RefreshMalformed := "Auto lock on site refresh must be a boolean"

  /** Messages of one rule chain: `exists()` and then one format rule, each failing independently. */
  function Chain(value: Option<Json>, required: string, wellFormed: bool, malformed: string): seq<string>
  {
    (if value.None? then [required] else []) + (if wellFormed then [] else [malformed])
  }

  /** `body("username").exists().matches(/^[a-zA-Z0-9_]{4,32}$/)`. */
  function UsernameChain(body: map<string, Json>): (errs: seq<string>)
    ensures errs == [] <==> Field(body, "username").Some? && IsUsername(ToText(Field(body, "username")))
    ensures Field(body, "username").None? ==> errs == [UsernameRequired, UsernameMalformed]
    ensures errs != [] ==> errs[0] in {UsernameRequired, UsernameMalformed}
    ensures errs == [] ==> IsScalar(Field(body, "username").value)
  {
    var u := Field(body, "username");
    PatternIsUsernameRule(ToText(u));
    assert u.Some? && u.value.JObj? ==> !IsWordChar(ToText(u)[7]);
    Chain(u, UsernameRequired, MatchesUsernamePattern(ToText(u)), UsernameMalformed)
  }

  /** `body("masterToken").exists().isString()`: no length or format constraint. */
  function MasterTokenChain(body: map<string, Json>): (errs: seq<string>)
    ensures errs == [] <==> Field(body, "masterToken").Some? && Field(body, "masterToken").value.JStr?
  {
    var t := Field(body, "masterToken");
    Chain(t, MasterTokenRequired, t.Some? && t.value.JStr?, MasterTokenNotString)
  }

  /**
    `registerValidation`: a body passes exactly when it has a well-formed
    username and a string master token; username messages come first.
   */
  function RegisterValidation(body: map<string, Json>): (errs: seq<string>)
    ensures errs == [] <==> && Field(body, "username").Some?
                            && IsUsername(ToText(Field(body, "username")))
                            && Field(body, "masterToken").Some? && Field(body, "masterToken").value.JStr?
    ensures Field(body, "username").None? ==> errs[0] == UsernameRequired
    ensures UsernameChain(body) != [] ==> errs[0] in {UsernameRequired, UsernameMalformed}
    ensures errs == [] ==> IsScalar(Field(body, "username").value)
  {
    UsernameChain(body) + MasterTokenChain(body)
  }

  /** `loginValidation`: the same rules, in the same order, as registration. */
  function LoginValidation(body: map<string, Json>): (errs: seq<string>)
    ensures errs == RegisterValidation(body)
  {
    UsernameChain(body) + MasterTokenChain(body)
  }

  /** `createNewVaultValidation`: the username chain of the auth validators, alone. */
  function CreateNewVaultValidation(body: map<string, Json>): (errs: seq<string>)
    ensures errs == [] <==> Field(body, "username").Some? && IsUsername(ToText(Field(body, "username")))
    ensures Field(body, "username").None? ==> errs[0] == UsernameRequired
  {
    UsernameChain(body)
  }

  /** validator.js `isInt(str, {min: 0})`: `^[-+]?[0-9]+$` (leading zeros allowed) and `Number(str) >= 0`. */
  predicate IsNonNegativeIntText(t: string)
  {
    ParseSignedInt(t).Some? && ParseSignedInt(t).value >= 0
  }

  /** validator.js strict `isBoolean`. */
  predicate IsBooleanText(t: string)
  {
    t == "true" || t == "false" || t == "1" || t == "0"
  }

  /** `updateSettingsValidation`: the `settings` object, then its two fields, in declaration order. */
  function UpdateSettingsValidation(body: map<string, Json>): (errs: seq<string>)
    ensures Field(body, "settings").None? ==> |errs| >= 1 && errs[0] == SettingsRequired
    ensures errs == [] ==> Field(body, "settings").Some? && Field(body, "settings").value.JObj?
    ensures errs == [] <==> && IsNonNegativeIntText(ToText(Get(Field(body, "settings"), "autoLockTimeInterval")))
                            && IsBooleanText(ToText(Get(Field(body, "settings"), "autoLockOnSiteRefresh")))
    ensures var i := Get(Field(body, "settings"), "autoLockTimeInterval");
            i.Some? && i.value.JNum? ==> (IsNonNegativeIntText(ToText(i)) <==> 0 <= i.value.n < ExponentThreshold)
    ensures Field(body, "settings").Some? && !IsNonNegativeIntText(ToText(Get(Field(body, "settings"), "autoLockTimeInterval")))
            ==> errs[0] in {IntervalRequired, IntervalMalformed}
  {
    var settings := Field(body, "settings");
    var interval := Get(settings, "autoLockTimeInterval");
    var refresh := Get(settings, "autoLockOnSiteRefresh");
    IntervalText(interval);
    (if settings.None? then [SettingsRequired] else [])
    + Chain(interval, IntervalRequired, IsNonNegativeIntText(ToText(interval)), IntervalMalformed)
    + Chain(refresh, RefreshRequired, IsBooleanText(ToText(refresh)), RefreshMalformed)
  }

  /**
    A JSON number passes the interval rule exactly when it is non-negative
    and below 10^21: from there on its text is in exponent form ("1e+21"),
    which `isInt` rejects.
   */
  lemma NumericIntervalRule(n: int)
    ensures IsNonNegativeIntText(ToText(Some(JNum(n)))) <==> 0 <= n < ExponentThreshold
  {
    IntTextRoundTrip(n);
  }

  lemma IntervalText(v: Option<Json>)
    ensures v.Some? && v.value.JNum? ==> (IsNonNegativeIntText(ToText(v)) <==> 0 <= v.value.n < ExponentThreshold)
  {
    if v.Some? && v.value.JNum? {
      NumericIntervalRule(v.value.n);
    }
  }

  /** Outcome of `validateErrors`: a 400 response, or a call to `next`. */
  datatype Verdict = Reject(response: Response) | Proceed

  /**
    `validateErrors`: exactly one of "respond" and "continue" happens; with
    errors the response is 400 with body `{error: <first message>}`.
   */
  function ValidateErrors(errs: seq<string>): (v: Verdict)
    ensures v.Proceed? <==> errs == []
    ensures v.Reject? ==> v.response.status == 400 && v.response.body == map["error" := JStr(errs[0])]
  {
    if errs != [] then Reject(SendClientSideError(errs[0])) else Proceed
  }

  /** Only the first message is reported, however many follow it. */
  lemma FirstErrorWins(first: string, rest: seq<string>)
    ensures ValidateErrors([first] + rest) == ValidateErrors([first])
  {
  }
}

=== FILE: values.dfy ===
/**
  JSON values as the Express body parser delivers them, and the JavaScript
  coercions the server and client code rely on: the text conversion that
  express-validator applies before its string rules, decimal printing and
  parsing of integers, and truthiness.
 */
module Values {

  datatype Option<+T> = None | Some(value: T)

  /** A parsed JSON value. Arrays and fractional numbers are not modelled. */
  datatype Json =
    | JNull
    | JBool(b: bool)
    | JNum(n: int)
    | JStr(s: string)
    | JObj(fields: map<string, Json>)

  /** Property access `obj.key`; a missing key (or a non-object) is `undefined`, i.e. `None`. */
  function Get(v: Option<Json>, key: string): Option<Json>
  {
    if v.Some? && v.value.JObj? && key in v.value.fields then Some(v.value.fields[key]) else None
  }

  function Field(body: map<string, Json>, key: string): Option<Json>
  {
    if key in body then Some(body[key]) else None
  }

  predicate IsDigit(c: char) { '0' <= c <= '9' }

  function DigitChar(d: nat): (c: char)
    requires d < 10
    ensures IsDigit(c)
  {
    ('0' as int + d) as char
  }

  function DigitValue(c: char): nat
    requires IsDigit(c)
  {
    (c as int - '0' as int) as nat
  }

  /** Decimal digits of a natural number, most significant first, no leading zeros. */
  function NatToDigits(n: nat): (r: string)
    ensures |r| >= 1
    ensures forall i :: 0 <= i < |r| ==> IsDigit(r[i])
    decreases n
  {
    if n < 10 then [DigitChar(n)] else NatToDigits(n / 10) + [DigitChar(n % 10)]
  }

  /** Value of a non-empty run of decimal digits (leading zeros allowed). */
  function DigitsValue(s: string): nat
    requires forall i :: 0 <= i < |s| ==> IsDigit(s[i])
  {
    if |s| == 0 then 0 else 10 * DigitsValue(s[..|s| - 1]) + DigitValue(s[|s| - 1])
  }

  /** 10^21: from this magnitude on, JavaScript prints a number in exponent form. */
  const ExponentThreshold := 1_000_000_000_000_000_000_000

  /** A run of decimal digits without its trailing zeros, keeping at least one digit. */
  function StripTrailingZeros(d: string): (r: string)
    requires |d| >= 1
    ensures 1 <= |r| <= |d| && r == d[..|r|]
    ensures forall i :: |r| <= i < |d| ==> d[i] == '0'
    ensures |r| > 1 ==> r[|r| - 1] != '0'
  {
    if |d| > 1 && d[|d| - 1] == '0' then StripTrailingZeros(d[..|d| - 1]) else d
  }

  /**
    `String(m)` for an integral `m >= 10^21` (Number::toString, section
    6.1.6.1.20 of ECMA-262): the significant digits as `d` or `d.ddd`, then
    `e+` and the decimal exponent, as in "1e+21" or "1.5e+22".
   */
  function ExponentForm(m: nat): (r: string)
    requires m >= ExponentThreshold
    ensures |r| >= 2 && r[0] == NatToDigits(m)[0]
    ensures 'e' in r[1..]
  {
    var digits := NatToDigits(m);
    var significant := StripTrailingZeros(digits);
    var fraction := if |significant| > 1 then "." + significant[1..] else "";
    var r := [significant[0]] + fraction + "e+" + NatToDigits(|digits| - 1);
    assert r[1 + |fraction|] == 'e';
    assert r[1..][|fraction|] == 'e';
    r
  }

  /** JavaScript `String(m)` for an integral `m >= 0`: plain digits below 10^21, exponent form from there on. */
  function NumberText(m: nat): string
  {
    if m < ExponentThreshold then NatToDigits(m) else ExponentForm(m)
  }

  /** JavaScript `String(n)` for an integral number. */
  function IntToText(n: int): string
  {
    if n < 0 then "-" + NumberText(-n) else NumberText(n)
  }

  predicate AllDigits(s: string)
  {
    |s| >= 1 && forall i :: 0 <= i < |s| ==> IsDigit(s[i])
  }

  /** Text of the shape `^[-+]?[0-9]+$`, read as a number (`Number(str)` of such text). */
  function ParseSignedInt(s: string): Option<int>
  {
    if |s| >= 1 && (s[0] == '-' || s[0] == '+') && AllDigits(s[1..]) then
      var m: int := DigitsValue(s[1..]);
      Some(if s[0] == '-' then -m else m)
    else if AllDigits(s) then Some(DigitsValue(s))
    else None
  }

  /**
    The text express-validator's string rules see: `undefined` and `null`
    become "", booleans and numbers their `String` form, plain objects
    "[object Object]", strings themselves.
   */
  function ToText(v: Option<Json>): string
  {
    match v
    case None => ""
    case Some(JNull) => ""
    case Some(JBool(b)) => if b then "true" else "false"
    case Some(JNum(n)) => IntToText(n)
    case Some(JStr(s)) => s
    case Some(JObj(_)) => "[object Object]"
  }

  /** JavaScript truthiness of an optional value (`undefined` is falsy). */
  predicate Truthy(v: Option<Json>)
  {
    match v
    case None => false
    case Some(JNull) => false
    case Some(JBool(b)) => b
    case Some(JNum(n)) => n != 0
    case Some(JStr(s)) => s != ""
    case Some(JObj(_)) => true
  }

  lemma {:induction false} DigitsValueAppend(s: string, c: char)
    requires forall i :: 0 <= i < |s| ==> IsDigit(s[i])
    requires IsDigit(c)
    ensures DigitsValue(s + [c]) == 10 * DigitsValue(s) + DigitValue(c)
  {
    assert (s + [c])[..|s + [c]| - 1] == s;
  }

  /** Printing a natural number and reading the digits back gives the number. */
  lemma {:induction false} DigitsRoundTrip(n: nat)
    ensures DigitsValue(NatToDigits(n)) == n
    decreases n
  {
    if n < 10 {
      assert NatToDigits(n)[..0] == [];
      assert DigitValue(DigitChar(n)) == n;
    } else {
      var q, d := n / 10, n % 10;
      DigitsRoundTrip(q);
      assert NatToDigits(n) == NatToDigits(q) + [DigitChar(d)];
      DigitsValueAppend(NatToDigits(q), DigitChar(d));
      assert DigitValue(DigitChar(d)) == d;
      assert n == 10 * q + d;
    }
  }

  /** The exponent form has a digit in front and an `e` after it, so it is neither digits nor signed digits. */
  lemma ExponentFormIsNotDigits(m: nat)
    requires m >= ExponentThreshold
    ensures IsDigit(ExponentForm(m)[0])
    ensures !AllDigits(ExponentForm(m)) && !AllDigits(ExponentForm(m)[1..])
  {
    var e := ExponentForm(m);
    var k :| 0 <= k < |e[1..]| && e[1..][k] == 'e';
    assert e[k + 1] == 'e';
  }

  /** Plain digits read back as the number they print. */
  lemma PlainTextRoundTrip(n: int)
    requires -ExponentThreshold < n < ExponentThreshold
    ensures ParseSignedInt(IntToText(n)) == Some(n)
  {
    var s := IntToText(n);
    if n < 0 {
      var d := NatToDigits(-n);
      assert s[0] == '-' && s[1..] == d;
      assert AllDigits(d);
      DigitsRoundTrip(-n);
    } else {
      assert AllDigits(s) && IsDigit(s[0]);
      DigitsRoundTrip(n);
    }
  }

  /**
    `Number(String(n)) == n` exactly for the integers JavaScript prints as
    plain digits, `|n| < 10^21`; the exponent form of larger ones does not
    have the signed-digits shape.
   */
  lemma IntTextRoundTrip(n: int)
    ensures ParseSignedInt(IntToText(n)) == if -ExponentThreshold < n < ExponentThreshold then Some(n) else None
  {
    if n <= -ExponentThreshold {
      ExponentFormIsNotDigits(-n);
      assert IntToText(n) == "-" + ExponentForm(-n);
      assert IntToText(n)[1..] == ExponentForm(-n);
    } else if n >= ExponentThreshold {
      ExponentFormIsNotDigits(n);
      assert IntToText(n) == ExponentForm(n);
    } else {
      PlainTextRoundTrip(n);
    }
  }

  /** A boolean, number or string: the JSON values node-postgres sends as query parameters by their text. */
  predicate IsScalar(v: Json)
  {
    v.JBool? || v.JNum? || v.JStr?
  }

  /** The text node-postgres sends for a scalar query parameter: its `String` form. */
  function ParamText(v: Json): (t: string)
    requires IsScalar(v)
    ensures v.JStr? ==> t == v.s
  {
    ToText(Some(v))
  }
}

=== FILE: vaults_controller.dfy ===
/**
  Reading, overwriting and deleting the principal's vault
  (server/src/controllers/vaults.ts). Each handler receives the username
  the auth gate bound to the request, never one from the body; the vault
  value is opaque and stored as given.
 */
module VaultsController {

  import opened Values
  import opened Postgres
  import opened ResponseTemplates
  import opened Store

  function VaultNotFound(username: string): string
  {
    "Vault not found for username: " + username + "!"
  }

  function VaultMissing(username: string): string
  {
    "Vault with username: " + username + " does not exist!"
  }

  /** The value the `vault` column receives for `request.body.vault`: a missing field is sent as NULL. */
  function VaultParam(v: Option<Json>): Json
  {
    if v.Some? then v.value else JNull
  }

  function GetVaultOperations(s: State, username: string, io: Io): OpsResult<State, Response>
  {
    if QueryFails(io, 0) then Threw(QueryFailed(0))
    else if username !in s.vaults then Returned(SendClientSideError(VaultNotFound(username), 401), s)
    else
      Returned(SendSuccessResponse("Vault retreived successfully!", 200, map["vault" := s.vaults[username].vault]), s)
  }

  /**
    `getVaultHandler`: the stored vault value, unmodified, for the
    principal; 401 "Vault not found for username: <u>!" when the account is
    gone. The store never changes.
   */
  function GetVault(s: State, username: string, io: Io): (h: Handled)
    ensures h.store == s
    ensures h.returned.Some? && username !in s.vaults ==>
              h.returned.value == SendClientSideError(VaultNotFound(username), 401)
    ensures h.returned.Some? && username in s.vaults ==>
              h.returned.value.status == 200 && BodyField(h.returned.value, "vault") == Some(s.vaults[username].vault)
    ensures io == Reliable ==> h.returned.Some? && h.error.None?
  {
    Transaction(s, io, (st: State) => GetVaultOperations(st, username, io))
  }

  function UpdateVaultOperations(s: State, username: string, vault: Json, io: Io): OpsResult<State, Response>
  {
    if QueryFails(io, 0) then Threw(QueryFailed(0))
    else if username !in s.vaults then Returned(SendClientSideError(VaultMissing(username), 400), s)
    else if QueryFails(io, 1) then Threw(QueryFailed(1))
    else
      var updated := s.(vaults := s.vaults[username := s.vaults[username].(vault := vault)]);
      Returned(SendSuccessResponse("Vault updated successfully for user with username:" + username + "!", 200), updated)
  }

  /**
    `updateVaultHandler`: 400 and no change for an absent account;
    otherwise only the principal's vault value changes: its id and master
    token, every other account and all settings stay as they were.
   */
  function UpdateVault(s: State, username: string, vault: Json, io: Io): (h: Handled)
    ensures username !in s.vaults ==> h.store == s
    ensures username !in s.vaults && h.returned.Some? ==>
              h.returned.value == SendClientSideError(VaultMissing(username), 400)
    ensures h.error.Some? ==> h.store == s
    ensures username in s.vaults && h.error.None? ==>
              && h.store.vaults.Keys == s.vaults.Keys
              && h.store.vaults[username].vault == vault
              && h.store.vaults[username].id == s.vaults[username].id
              && h.store.vaults[username].masterToken == s.vaults[username].masterToken
              && (forall u :: u in s.vaults && u != username ==> h.store.vaults[u] == s.vaults[u])
              && h.store.settings == s.settings && h.store.nextId == s.nextId
    ensures username in s.vaults && h.returned.Some? ==> h.returned.value.status == 200
  {
    Transaction(s, io, (st: State) => UpdateVaultOperations(st, username, vault, io))
  }

  function DeleteVaultOperations(s: State, username: string, io: Io): OpsResult<State, Response>
  {
    if QueryFails(io, 0) then Threw(QueryFailed(0))
    else if username !in s.vaults then Returned(SendClientSideError(VaultNotFound(username), 401), s)
    else if QueryFails(io, 1) then Threw(QueryFailed(1))
    else Returned(SendSuccessResponse("Vault deleted successfully!", 200), s.(vaults := s.vaults - {username}))
  }

  /**
    `deleteVaultHandler`: 401 and no change for an absent account;
    otherwise exactly that account's row is removed. The settings table is
    not touched by the handler.
   */
  function DeleteVault(s: State, username: string, io: Io): (h: Handled)
    ensures username !in s.vaults ==> h.store == s
    ensures username !in s.vaults && h.returned.Some? ==>
              h.returned.value == SendClientSideError(VaultNotFound(username), 401)
    ensures h.error.Some? ==> h.store == s
    ensures username in s.vaults && h.error.None? ==>
              && h.store.vaults.Keys == s.vaults.Keys - {username}
              && (forall u :: u in h.store.vaults ==> h.store.vaults[u] == s.vaults[u])
              && h.store.settings == s.settings
    ensures username in s.vaults && h.returned.Some? ==>
              h.returned.value == SendSuccessResponse("Vault deleted successfully!", 200)
  {
    Transaction(s, io, (st: State) => DeleteVaultOperations(st, username, io))
  }

  /** Writing a vault value and reading it back gives that value. */
  lemma UpdateThenGet(s: State, username: string, vault: Json)
    requires username in s.vaults
    ensures var h := UpdateVault(s, username, vault, Reliable);
            var g := GetVault(h.store, username, Reliable);
            BodyField(g.returned.value, "vault") == Some(vault)
  {
    var h := UpdateVault(s, username, vault, Reliable);
    assert h.error.None?;
  }

  /** A write to one account's vault is never seen when reading another's. */
  lemma VaultIsolation(s: State, writer: string, reader: string, vault: Json)
    requires writer != reader && writer in s.vaults
    ensures var h := UpdateVault(s, writer, vault, Reliable);
            GetVault(h.store, reader, Reliable).returned == GetVault(s, reader, Reliable).returned
  {
    var h := UpdateVault(s, writer, vault, Reliable);
    assert h.error.None?;
    assert reader in h.store.vaults <==> reader in s.vaults;
  }

  /** After a delete, reading the vault reports it as not found. */
  lemma DeleteThenGet(s: State, username: string)
    requires username in s.vaults
    ensures var h := DeleteVault(s, username, Reliable);
            GetVault(h.store, username, Reliable).returned == Some(SendClientSideError(VaultNotFound(username), 401))
  {
    var h := DeleteVault(s, username, Reliable);
    assert h.error.None?;
  }

  /** Updating and deleting vaults keep the store invariant. */
  lemma VaultWritesKeepValid(s: State, username: string, vault: Json, io: Io)
    requires Valid(s)
    ensures Valid(UpdateVault(s, username, vault, io).store)
    ensures Valid(DeleteVault(s, username, io).store)
  {
    var h := UpdateVault(s, username, vault, io);
    if username in s.vaults && h.error.None? {
      assert forall u :: u in h.store.vaults ==> h.store.vaults[u].id == s.vaults[u].id;
    }
  }
}
